=== FILE: README.md ===
# Text repeater: the generation and styling engine in Dafny

This project models the text engine of a mobile text-repeater app. The app
repeats a base text a chosen number of times and decorates the result with a
Unicode font-style template. The model covers:

- **Generator** (`generateRepeatedText`). The base text optionally gets a
  closing period. It is repeated `R` times, each occurrence optionally
  prefixed with its ordinal (`"i. "`) or its rounded percentage (`"p% "`), and
  the occurrences are joined by a separator made of an optional newline and
  an optional space. The source has three code paths: native `repeat`, one
  join, and batches of 1000 for `R > 1000`. `Generator.GenerateRepeatedText`
  follows all three and proves that each one builds the same string as the
  direct join.
- **Catalog** (`fontStyles`, `fontStyleCategories`). Every template is stored
  as a prefix, the placeholder `$TEXT$` and a suffix. The model proves that the
  placeholder occurs exactly once in each template, and that every name a
  category lists is a style.
- **Styler** (`getStyledText`). The whole text is filled into the template
  once, or it is cut at the separator and every non-blank piece is filled in
  on its own. The Time and Date styles first refresh their clock expressions.
- **Preview** (`renderStylePreview` of the style picker, `previewResult` of a
  style card).
- **StyleList** (`listData`, `selectedItemIndex` of the font style screen).
- **Settings** (the Home screen's `handleSettingChange`, word count, and the
  Repeat button's gate).

`Strings` gives the JavaScript string primitives the engine uses:
- `split` and `join` with a string separator, and `repeat`;
- `replace` with a string pattern, including the expansion of `$` patterns in
  the replacement;
- a global regular-expression replace of a literal;
- `trim` and `\s` over the ECMAScript whitespace set;
- the decimal rendering of a number in a template literal.

Clock readings are parameters. `Catalog.LoadClock` holds the strings the
Time & Date templates captured when the catalog was built, one per
`new Date()` call. The styling functions take the current reading as `now`,
a `Catalog.ClockReading`.

## Model

| member | source | states |
|---|---|---|
| Generator.ProcessText | src/store/textStore.ts:274-278 | with `addPeriod` the text ends with a period; text already ending with one is left as it is; without `addPeriod` the text is unchanged |
| Generator.PeriodNotDoubled | src/store/textStore.ts:276-278 | adding the period twice is the same as adding it once |
| Generator.Separator | src/store/textStore.ts:292-294 | the separator has one character per option set: a newline first when `addNewLine`, a space last when `addSpace` |
| Generator.SeparatorUnbordered | src/store/textStore.ts:292-294 | none of the possible separators overlaps itself, so a split cuts only where a separator was inserted |
| Generator.Percent | src/store/textStore.ts:315 | the percentage is within half a unit of `100 * i / R`, with halves rounded up |
| Generator.PercentMonotone | src/store/textStore.ts:342 | percentages never decrease along the output |
| Generator.PercentBounds | src/store/textStore.ts:342 | every percentage lies in 0..100 and the last occurrence shows 100 |
| Generator.EnumeratorReadBack | src/store/textStore.ts:333-345 | an occurrence is a numeral, then `". "` or `"% "`, then the processed text; the numeral reads back as the ordinal (numbers win over percentages) or as the percentage |
| Generator.OccurrencesAppend | src/store/textStore.ts:303-309 | two adjacent batches with global offsets form one run of occurrences |
| Generator.ChunkCount | src/store/textStore.ts:299-303 | `Math.ceil(R / 1000)` batches are exactly the batch starts below `R` |
| Generator.BatchStep | src/store/textStore.ts:323-328 | appending a separator and the next joined batch extends the direct join |
| Generator.AppendBatch | src/store/textStore.ts:303-328 | one batch keeps the accumulated text equal to the direct join of the occurrences so far, followed by a separator when more batches follow |
| Generator.BuildChunked | src/store/textStore.ts:296-331 | the chunked build equals the direct join of all occurrences |
| Generator.GenerateRepeatedText | src/store/textStore.ts:267-354 | all three code paths produce the direct join of the occurrences; empty text or a non-positive count gives `""` |
| Generator.FastPathIsDirect | src/store/textStore.ts:283-289 | with no option set, native `repeat` equals the join with the empty separator |
| Generator.GeneratedEmptyIff | src/store/textStore.ts:270-272 | the output is empty exactly when the text is empty or the count is not positive |
| Generator.PlainRepeatLength | src/store/textStore.ts:289 | with no option set, the output is `R` times as long as the processed text |
| Generator.SeparatorCount | src/store/textStore.ts:346-347 | the output length is the occurrences' total length plus `R - 1` separators |
| Generator.OccurrenceChars | src/store/textStore.ts:309 | an occurrence of a text without newlines or spaces has no newline, and has no space when no enumerator is set |
| Generator.SplitRecoversOccurrences | src/store/textStore.ts:333-347 | when the text does not hold the separator's first character, and a lone space separator comes without an enumerator, splitting the output on the separator gives back the occurrences in order |
| Generator.GateAgreesWithGenerator | src/screens/Home/index.tsx:133-139 | the Repeat button goes on to generation exactly when the generator has a non-empty result |
| Generator.SpacedExample | src/store/textStore.ts:347 | `"Hi"`, three times with a space, gives `"Hi Hi Hi"` |
| Generator.NumberedExample | src/store/textStore.ts:334-337 | numbered occurrences with no separator run together: `"1. hi2. hi3. hi"` |
| Generator.PercentExample | src/store/textStore.ts:339-345 | two occurrences, one per line, are prefixed `50% ` and `100% ` |
| Generator.TwoOccurrences | src/store/textStore.ts:333-347 | two repetitions give the first occurrence, the separator, and the second occurrence |
| Generator.PeriodExample | src/store/textStore.ts:276-278 | `"Done."` keeps its single period; `"Go"` gets one |
| Settings.Set | src/screens/Home/index.tsx:100 | the set switch takes the new value and every other switch keeps its value |
| Settings.HandleSettingChange | src/screens/Home/index.tsx:93-102 | turning one enumerator on turns the other off; any other change touches only its own switch; exclusive options stay exclusive |
| Settings.EnumeratorOnRestoresExclusive | src/screens/Home/index.tsx:95-98 | turning an enumerator on leaves exclusive options whatever came before |
| Settings.ChangesKeepExclusive | src/screens/Home/index.tsx:93-102 | every sequence of changes from exclusive options keeps them exclusive |
| Settings.SessionKeepsExclusive | src/store/textStore.ts:249-255 | from the store's initial settings, both enumerators are never on together |
| Settings.SplitOnSpaceRuns | src/screens/Home/index.tsx:78 | `split(/\s+/)` gives at least one piece and no piece holds whitespace |
| Settings.WordCountCountsRuns | src/screens/Home/index.tsx:78 | the word count is the number of maximal runs of non-whitespace characters |
| Settings.WordCountZeroIffBlank | src/screens/Home/index.tsx:71 | the count is 0 exactly for empty or all-whitespace text |
| Settings.RepeatGate | src/screens/Home/index.tsx:133-182 | no text warns; a count of 0 or less is rejected; more than 5000 asks for confirmation; otherwise generation starts at once; each decision holds exactly under its condition |
| Catalog.DollarPositions | src/store/textStore.ts:33-168 | the only dollar signs of a template are the two ends of its placeholder |
| Catalog.TemplatePlaceholderOnce | src/store/textStore.ts:33-168 | a template holds `$TEXT$` at exactly one position, right after its prefix |
| Catalog.CatalogPlaceholderOnce | src/store/textStore.ts:33-168 | every template of the catalog holds `$TEXT$` exactly once |
| Catalog.CategoriesNameStyles | src/store/textStore.ts:171-240 | every name listed in a category is a key of the style map |
| Styler.Put | src/store/textStore.ts:404 | literal substitution for the placeholder; a template without the placeholder is unchanged |
| Styler.PutAsWritten | src/store/textStore.ts:404 | JavaScript's `replace` agrees with the literal substitution on content without a dollar sign |
| Styler.PutInTemplate | src/store/textStore.ts:397 | filling a catalog template puts the content verbatim between the prefix and the suffix |
| Styler.RefreshClock | src/store/textStore.ts:369-382 | a template with no `new Date()` expression is unchanged by the clock refresh |
| Styler.TokenHasNoClock | src/store/textStore.ts:35 | the bare placeholder holds no clock expression |
| Styler.TemplateHasNoClock | src/store/textStore.ts:33-168 | no template holds a `new Date()` expression |
| Styler.CatalogHasNoClock | src/store/textStore.ts:369-382 | no catalog template holds a `new Date()` expression, so the clock refresh leaves every one of them unchanged |
| Styler.Style | src/store/textStore.ts:356-409 | empty text, the Normal style and a style without a template all return the text unchanged |
| Styler.GetStyledText | src/store/textStore.ts:359-366 | empty text, the Normal style, and an absent or empty template give the text back unchanged |
| Styler.AsWrittenAgreesWithoutDollar | src/store/textStore.ts:397-404 | the as-written and the literal styling agree on every text without a dollar sign |
| Styler.SplitPartsIn | src/store/textStore.ts:401 | every piece of a split holds only characters of the whole text |
| Styler.StylePartInTemplate | src/store/textStore.ts:402-405 | a blank piece is kept; any other piece goes between the prefix and the suffix |
| Styler.PlaceholderStyleIsIdentity | src/store/textStore.ts:356-409 | the bare `$TEXT$` template leaves every text unchanged |
| Styler.WholeTextStyled | src/store/textStore.ts:394-398 | without a separator the whole text goes between the prefix and the suffix once |
| Styler.WholeTextAsWritten | src/store/textStore.ts:394-398 | without a separator both substitutions are a single `replace` on the whole text |
| Styler.OccurrenceNotBlank | src/store/textStore.ts:403 | an occurrence of a non-blank text is never skipped as blank |
| Styler.PlaceholderKeepsParts | src/store/textStore.ts:401-405 | the bare `$TEXT$` template leaves every piece unchanged |
| Styler.OccurrencesNotBlank | src/store/textStore.ts:403 | no occurrence generated from a non-blank text is blank |
| Styler.StylesEachPart | src/store/textStore.ts:400-408 | a text cut into non-blank pieces is styled piece by piece, each piece between the prefix and the suffix |
| Styler.StylesEachOccurrence | src/store/textStore.ts:400-408 | styling the generated text decorates every occurrence on its own and rejoins with the same separator, whenever the split gives back the occurrences |
| Styler.StyledSplitsBack | src/store/textStore.ts:400-408 | styling round trip: when neither the pieces nor the decoration hold the separator's first character, splitting the styled text on the separator gives one piece per original piece, each the original between the template's prefix and suffix |
| Styler.StyledOccurrencesSplitBack | src/store/textStore.ts:400-408 | the same round trip on the generator's output: the split styled text has one piece per repetition, piece `k` being occurrence `k + 1` wrapped in the template |
| Styler.DecorationHoldingSepBreaksSplit | src/store/textStore.ts:400-408 | when the template's prefix contains the separator (Hearts' `"♥♥♥ "` with a space separator), splitting the styled text does not give back the decorated pieces |
| Styler.AmpersandPattern | src/store/textStore.ts:397 | JavaScript puts the placeholder back for the content `$&`; the literal substitution puts `$&` itself |
| Styler.DollarPatternExpanded | src/store/textStore.ts:397 | styling the text `$&` as written shows the bare template, which differs from the intended decorated text |
| Strings.JoinSplit | src/store/textStore.ts:401-408 | joining the pieces of a split with the same separator gives back the string |
| Strings.SplitJoin | src/store/textStore.ts:401-408 | splitting a join of cleanly delimited pieces gives back the pieces |
| Strings.RepeatIsJoin | src/store/textStore.ts:289 | `repeat(n)` is the join of `n` copies with the empty separator |
| Strings.TrimEmptyIffBlank | src/store/textStore.ts:403 | `trim()` is empty exactly for blank strings |
| Strings.ReplaceFirstWrapped | src/components/Home/FontStyleSelector.tsx:20 | only the first placeholder is replaced: a later one in the suffix stays |
| Strings.JsReplaceFirst | src/store/textStore.ts:404 | a string without the pattern is unchanged; a replacement without `$` is inserted literally |
| Preview.RenderStylePreview | src/components/Home/FontStyleSelector.tsx:12-25 | a style without a template returns the sample unchanged |
| Preview.RenderDecoratesEachWord | src/components/Home/FontStyleSelector.tsx:17-24 | both branches fill every `' '`-separated word and rejoin with spaces; the single-word branch is the same formula |
| Preview.RenderInTemplate | src/components/Home/FontStyleSelector.tsx:17-20 | with a catalog template every word, empty ones included, goes between the prefix and the suffix |
| Preview.RenderPlaceholderIsIdentity | src/components/Home/FontStyleSelector.tsx:12-25 | the bare `$TEXT$` template previews the sample as it is |
| Preview.PreviewResult | src/screens/FontStyleScreen/index.tsx:63-64 | an empty template previews the sample unchanged |
| Preview.PreviewInTemplate | src/screens/FontStyleScreen/index.tsx:67-83 | a card shows prefix, sample, suffix; for Time and Date styles the template loses its double quotes but the sample keeps its own |
| StyleList.RowStyles | src/screens/FontStyleScreen/index.tsx:157-172 | a row holds the name at `2m` and, only when it exists and is not empty, the name at `2m + 1`, each with its template |
| StyleList.RowLoopStep | src/screens/FontStyleScreen/index.tsx:157-179 | the loop turn at name index `2m` pushes row `m`: id `row_i_m`, the name at `2m`, and the one at `2m + 1` when it is present and not empty |
| StyleList.RowLoopFrom | src/screens/FontStyleScreen/index.tsx:157-179 | the loop from name index `2m` on builds exactly the rows from row `m` on |
| StyleList.RowLoopIsRows | src/screens/FontStyleScreen/index.tsx:157-179 | the loop `j = 0, 2, 4, …` builds `ceil(n / 2)` rows for `n` names, equal to the indexed rows the rest of the model uses |
| StyleList.ListLength | src/screens/FontStyleScreen/index.tsx:142-183 | the list has one header and `ceil(n / 2)` rows per category |
| StyleList.RowShowsPair | src/screens/FontStyleScreen/index.tsx:159-172 | a row shows its one or two names in order |
| StyleList.ShownPairs | src/screens/FontStyleScreen/index.tsx:157-179 | rows that each show the next pair of names show, read in order, the names from the first pair on |
| StyleList.RowsShowNames | src/screens/FontStyleScreen/index.tsx:157-179 | when no name at an odd position is empty, reading the rows' names in order gives back the category's name list |
| StyleList.RowHasName | src/screens/FontStyleScreen/index.tsx:159-172 | row `m` shows name `2m`, and name `2m + 1` when it is present and not empty |
| StyleList.BlockShows | src/screens/FontStyleScreen/index.tsx:150-179 | name `2m + b` of a category is shown by row `m` of the category's block |
| StyleList.NameShown | src/screens/FontStyleScreen/index.tsx:150-179 | every name of a category is shown by its block, except an empty name at an odd position |
| StyleList.ListShows | src/screens/FontStyleScreen/index.tsx:146-183 | a style shown by one category's block, or by the blocks after it, is shown by the list from that category on |
| StyleList.BlockCarries | src/screens/FontStyleScreen/index.tsx:162-171 | every entry of a category's block carries its own name's template |
| StyleList.EntriesCarryTheirTemplates | src/screens/FontStyleScreen/index.tsx:162-171 | every entry carries its own name's template, or `''` when there is none |
| StyleList.KindsDiffer | src/screens/FontStyleScreen/index.tsx:152 | a header id never equals a row id |
| StyleList.HeaderIdInjective | src/screens/FontStyleScreen/index.tsx:152 | headers of different categories have different ids |
| StyleList.RowIdInjective | src/screens/FontStyleScreen/index.tsx:176 | rows of different positions have different ids |
| StyleList.IdOfInjective | src/screens/FontStyleScreen/index.tsx:150-177 | different positions give different ids |
| StyleList.BlockIds | src/screens/FontStyleScreen/index.tsx:150-177 | the header of a block carries `cat_i` and its row `m` carries `row_i_m` |
| StyleList.IdsFollowKeys | src/screens/FontStyleScreen/index.tsx:146-179 | item `p` carries the id of its position: `cat_i` for a header, `row_i_m` for row `m` |
| StyleList.KeysIncrease | src/screens/FontStyleScreen/index.tsx:146-179 | positions strictly increase along the list |
| StyleList.ListIdsDistinct | src/screens/FontStyleScreen/index.tsx:150-177 | no two items of the list share an id |
| StyleList.FirstRowWith | src/screens/FontStyleScreen/index.tsx:189-198 | the first row that shows a style: it shows it and no earlier row does, or no row shows it |
| StyleList.SelectedItemIndex | src/screens/FontStyleScreen/index.tsx:186-200 | -1 exactly when no style is selected or no row shows it; otherwise the item before the first such row, clamped at 0 |
| StyleList.ListedStyleShown | src/screens/FontStyleScreen/index.tsx:142-183 | every listed name is shown by some row of the list, except an empty name at an odd position |
| StyleList.ListedStyleSelectable | src/screens/FontStyleScreen/index.tsx:189-198 | looking up any such listed style finds a row that shows it (the name may still be empty; `StyleList.SelectListedStyle` gives the index for that case) |
| StyleList.SelectListedStyle | src/screens/FontStyleScreen/index.tsx:186-200 | for a style picked from the list, the index is -1 exactly when the picked name is empty; otherwise it is the item before the first row showing the style, or 0 |

Some operations have no row of their own, because their meaning is stated by the rows of the lemmas about them: `StyleList.ListData`, `StyleList.RowLoop` and `StyleList.Rows` (through the `StyleList` rows), `Settings.WordCount` (through `Settings.WordCountCountsRuns` and `Settings.WordCountZeroIffBlank`), `Strings.Join` and `Strings.Trim` (through the `Strings` rows), `Catalog.FontStyles` (through the `Catalog` rows and `Styler.CatalogHasNoClock`), and `Generator.Occurrence`, `Generator.Occurrences`, `Generator.DirectJoin` and `Generator.Expected` (through the `Generator` rows).

## Left out

- Zustand store plumbing (`set`, `get`, the setters) is left out. The state the operations read is passed in as parameters and the result is returned.
- Haptics, alerts, navigation, `requestAnimationFrame`, the clock timer and list scrolling are I/O or UI. `Settings.RepeatGate` returns the decision the Repeat button takes instead of performing it.
- `Date` and locale formatting are left out. The Time & Date templates take their captured strings from `Catalog.LoadClock`, one field per `new Date()` call. The styling and preview functions take the current reading as a `Catalog.ClockReading` parameter. Clock readings are assumed to hold neither a dollar sign nor the letter `w`, which holds for digits, separators and AM/PM marks but is not checked against every locale.
- Styler.RefreshClock: only the unchanged case is proved. The four rewrites look for the source text `new Date()...`, and `Styler.CatalogHasNoClock` proves that no catalog template contains it.
- Styler.StyledSplitsBack: the styling round trip is proved only when neither the prefix nor the suffix of the template holds the separator's first character. Many catalog decorations hold a space (Hearts is `"♥♥♥ "` … `" ♥♥♥"`), and with the space separator the split then cuts the decorations apart; `Styler.DecorationHoldingSepBreaksSplit` proves that the round trip fails whenever the prefix contains the separator.
- Generator.Percent: `Math.round` of a double is modelled as exact half-up rounding. A double quotient that lands just below an exact half could round differently.
- Repetition counts are integers. `NaN`, fractional counts, and counts too large for a JavaScript array or string are not modelled.
- Strings are sequences of Unicode scalar values. JavaScript counts UTF-16 code units, which changes string lengths only.
- Preview.PreviewResult and Preview.RenderStylePreview use the literal substitution. The same `$`-pattern expansion as in the finding below applies to their `replace` calls.
- The React components' rendering, memoisation and layout (the placeholder view under a one-entry row) are UI and are not modelled.

## Findings

| source | as written | input that shows it | evidently intended | confidence | as-written member | corrected member |
|---|---|---|---|---|---|---|
| src/store/textStore.ts:397 | `styleTemplate.replace('$TEXT$', text)` (also at line 404) passes the user's text as a `replace` replacement string, so `$&`, `$$`, `` $` `` and `$'` in it are expanded | text `$&` with style Hearts and no separator: the output is `♥♥♥ $TEXT$ ♥♥♥` | the text is inserted verbatim: `♥♥♥ $& ♥♥♥` | high; not executed | Styler.GetStyledTextAsWritten, Styler.DollarPatternExpanded | Styler.GetStyledText, Styler.StylesEachOccurrence, Styler.AsWrittenAgreesWithoutDollar |

=== FILE: catalog.dfy ===
/** The static style catalog: every decorative template by name, and the
    ordered category lists the pickers show. Each template is a prefix, the
    placeholder `$TEXT$`, and a suffix; the data keeps the three apart so that
    the placeholder's position is visible, and `Text` gives the template
    string itself. The groups follow the comment headings that divide
    `fontStyles` in the text store. */
module Catalog {
  import opened Strings

  /** The placeholder a template's content is substituted for. */
  const Token: string := "$TEXT$"

  /** Decoration around the placeholder: symbols, emoji, spaces, a few words
      and clock readings. It never holds a dollar sign, and never the letter
      `w`, so no decoration can spell out a `new Date()` clock expression. */
  type Plain = s: string | '$' !in s && 'w' !in s

  /** The template `pre + "$TEXT$" + suf`. */
  datatype Template = Template(pre: Plain, suf: Plain) {
    function Text(): string {
      pre + Token + suf
    }
  }

  /** Basic Styles. */
  const BasicStyles: map<string, Template> := map[
    "Normal" := Template("", "")
  ]

  /** Hearts & Love. */
  const HeartsAndLove: map<string, Template> := map[
    "Hearts" := Template("♥♥♥ ", " ♥♥♥"),
    "Love" := Template("💖 ", " 💖"),
    "Forever" := Template("", " Forever ❤️"),
    "Heart Arrow" := Template("💘 ", " 💘"),
    "Double Hearts" := Template("💕 ", " 💕"),
    "Sparkling Heart" := Template("💖✨ ", " ✨💖"),
    "Heart Eyes" := Template("😍 ", " 😍"),
    "Kiss Heart" := Template("😘 ", " 😘"),
    "Cupid Love" := Template("💘💕 ", " 💕💘"),
    "Romantic" := Template("💝 ", " 💝")
  ]

  /** Stars & Sparkles. */
  const StarsAndSparkles: map<string, Template> := map[
    "Stars" := Template("★·.·´¯`·.·★ ", " ★·.·´¯`·.·★"),
    "Sparkles" := Template("✨💫 ", " 💫✨"),
    "Star Eyes" := Template("🤩 ", " 🤩"),
    "Shooting Star" := Template("🌟 ", " 🌟"),
    "Twinkling" := Template("✨⭐ ", " ⭐✨"),
    "Glitter" := Template("✨🌟✨ ", " ✨🌟✨"),
    "Starry Night" := Template("🌙⭐ ", " ⭐🌙"),
    "Magical" := Template("🪄✨ ", " ✨🪄")
  ]

  /** Flowers & Nature. */
  const FlowersAndNature: map<string, Template> := map[
    "Roses" := Template("🌹 ", " 🌹"),
    "Cherry Blossom" := Template("🌸 ", " 🌸"),
    "Sunflower" := Template("🌻 ", " 🌻"),
    "Tulip" := Template("🌷 ", " 🌷"),
    "Hibiscus" := Template("🌺 ", " 🌺"),
    "Bouquet" := Template("💐 ", " 💐"),
    "Garden" := Template("🌸🌺 ", " 🌺🌸"),
    "Spring" := Template("🌷🌸 ", " 🌸🌷")
  ]

  /** Decorative Borders. */
  const DecorativeBorders: map<string, Template> := map[
    "Fancy" := Template("•°¯`•• ", " ••´¯°•"),
    "Waves" := Template("≈≈≈≈ ", " ≈≈≈≈"),
    "Ornate" := Template("◆◇◆ ", " ◆◇◆"),
    "Elegant" := Template("═══ ", " ═══"),
    "Royal" := Template("♔ ", " ♔"),
    "Crown" := Template("👑 ", " 👑"),
    "Diamond" := Template("💎 ", " 💎"),
    "Gem" := Template("💎✨ ", " ✨💎")
  ]

  /** Arrows & Symbols. */
  const ArrowsAndSymbols: map<string, Template> := map[
    "Arrow Left" := Template("← ", " →"),
    "Arrow Right" := Template("→ ", " ←"),
    "Double Arrow" := Template("⇆ ", " ⇆"),
    "Pointing" := Template("👉 ", " 👈"),
    "Up Arrow" := Template("↑ ", " ↑"),
    "Circle Arrow" := Template("↻ ", " ↺")
  ]

  /** Brackets & Frames. */
  const BracketsAndFrames: map<string, Template> := map[
    "Square Brackets" := Template("[ ", " ]"),
    "Curly Brackets" := Template("{ ", " }"),
    "Angle Brackets" := Template("⟨ ", " ⟩"),
    "Double Brackets" := Template("⟦ ", " ⟧"),
    "Corner Brackets" := Template("「 ", " 」"),
    "Rounded" := Template("( ", " )"),
    "Heavy Brackets" := Template("【 ", " 】")
  ]

  /** Fire & Energy. */
  const FireAndEnergy: map<string, Template> := map[
    "Fire" := Template("🔥 ", " 🔥"),
    "Lightning" := Template("⚡ ", " ⚡"),
    "Energy" := Template("⚡🔥 ", " 🔥⚡"),
    "Explosion" := Template("💥 ", " 💥"),
    "Spark" := Template("✨⚡ ", " ⚡✨")
  ]

  /** Music & Party. */
  const MusicAndParty: map<string, Template> := map[
    "Music" := Template("🎵 ", " 🎵"),
    "Party" := Template("🎉 ", " 🎉"),
    "Celebration" := Template("🎊 ", " 🎊"),
    "Dance" := Template("💃 ", " 🕺"),
    "Disco" := Template("🪩 ", " 🪩")
  ]

  /** Animals & Cute. */
  const AnimalsAndCute: map<string, Template> := map[
    "Cat" := Template("🐱 ", " 🐱"),
    "Dog" := Template("🐶 ", " 🐶"),
    "Bear" := Template("🐻 ", " 🐻"),
    "Panda" := Template("🐼 ", " 🐼"),
    "Unicorn" := Template("🦄 ", " 🦄"),
    "Butterfly" := Template("🦋 ", " 🦋")
  ]

  /** Food & Treats. */
  const FoodAndTreats: map<string, Template> := map[
    "Cake" := Template("🎂 ", " 🎂"),
    "Ice Cream" := Template("🍦 ", " 🍦"),
    "Candy" := Template("🍭 ", " 🍭"),
    "Cookie" := Template("🍪 ", " 🍪"),
    "Donut" := Template("🍩 ", " 🍩")
  ]

  /** Celestial. */
  const Celestial: map<string, Template> := map[
    "Moon" := Template("🌙 ", " 🌙"),
    "Sun" := Template("☀️ ", " ☀️"),
    "Rainbow" := Template("🌈 ", " 🌈"),
    "Cloud" := Template("☁️ ", " ☁️"),
    "Thunder" := Template("⛈️ ", " ⛈️")
  ]

  /** Emojis & Faces. */
  const EmojisAndFaces: map<string, Template> := map[
    "Happy" := Template("😊 ", " 😊"),
    "Excited" := Template("🤗 ", " 🤗"),
    "Cool" := Template("😎 ", " 😎"),
    "Wink" := Template("😉 ", " 😉"),
    "Tongue" := Template("😝 ", " 😝")
  ]

  /** Special Characters. */
  const SpecialCharacters: map<string, Template> := map[
    "Infinity" := Template("∞ ", " ∞"),
    "Peace" := Template("☮️ ", " ☮️"),
    "Yin Yang" := Template("☯️ ", " ☯️"),
    "Anchor" := Template("⚓ ", " ⚓"),
    "Key" := Template("🗝️ ", " 🗝️")
  ]

  /** Geometric. */
  const Geometric: map<string, Template> := map[
    "Triangle" := Template("▲ ", " ▲"),
    "Circle" := Template("● ", " ●"),
    "Square" := Template("■ ", " ■"),
    "Hexagon" := Template("⬡ ", " ⬡"),
    "Star Shape" := Template("⭐ ", " ⭐")
  ]

  /** The readings the Time & Date templates captured when the catalog was
      built, one per `new Date()` call: the default `toLocaleTimeString()` of
      With Time, Time Prefix, Time Suffix and Digital Time; the
      `toLocaleDateString()` and `toLocaleTimeString()` of Date & Time; the
      12-hour en-US time of Timed Message; and the two-digit en-US
      hour:minute:second of Seconds Counter. Each call reads the clock anew,
      so the readings need not agree. Locale time and date strings are
      digits, separators and day-period marks such as AM or PM, so none
      holds a dollar sign or the letter `w`. */
  datatype LoadClock = LoadClock(withTime: Plain, timePrefix: Plain, timeSuffix: Plain,
                                 digitalTime: Plain, date: Plain, dateTime: Plain,
                                 time12: Plain, timeHms: Plain)

  /** The four readings of one instant that the styler writes into a Time or
      Date template when it refreshes the clock. */
  datatype ClockReading = ClockReading(time: Plain, date: Plain, time12: Plain, timeHms: Plain)

  /** Time & Date Formatting. */
  function TimeAndDate(clock: LoadClock): map<string, Template> {
    map[
      "With Time" := Template("🕒 ", " [" + clock.withTime + "]"),
      "Time Prefix" := Template(clock.timePrefix + " | ", ""),
      "Time Suffix" := Template("", " | " + clock.timeSuffix),
      "Digital Time" := Template("⏰ ", " (" + clock.digitalTime + ")"),
      "Date & Time" := Template("📅 ", " - " + clock.date + " " + clock.dateTime),
      "Timed Message" := Template("[", " @ " + clock.time12 + "]"),
      "Seconds Counter" := Template("", " ⏱️ " + clock.timeHms)
    ]
  }

  /** Every template, by style name. */
  function Templates(clock: LoadClock): map<string, Template> {
    BasicStyles + HeartsAndLove + StarsAndSparkles + FlowersAndNature + DecorativeBorders + ArrowsAndSymbols + BracketsAndFrames + FireAndEnergy + MusicAndParty + AnimalsAndCute + FoodAndTreats + Celestial + EmojisAndFaces + SpecialCharacters + Geometric + TimeAndDate(clock)
  }

  /** `fontStyles`: style name to template string. */
  function FontStyles(clock: LoadClock): map<string, string> {
    var t := Templates(clock);
    map n | n in t :: t[n].Text()
  }

  /** The style names of each category of `fontStyleCategories`. */
  const HeartsAndLoveNames: seq<string> := ["Hearts", "Love", "Forever", "Heart Arrow", "Double Hearts", "Sparkling Heart", "Heart Eyes", "Kiss Heart", "Cupid Love", "Romantic"]
  const StarsAndSparklesNames: seq<string> := ["Stars", "Sparkles", "Star Eyes", "Shooting Star", "Twinkling", "Glitter", "Starry Night", "Magical"]
  const FlowersAndNatureNames: seq<string> := ["Roses", "Cherry Blossom", "Sunflower", "Tulip", "Hibiscus", "Bouquet", "Garden", "Spring"]
  const DecorativeNames: seq<string> := ["Fancy", "Waves", "Ornate", "Elegant", "Royal", "Crown", "Diamond", "Gem"]
  const ArrowsAndSymbolsNames: seq<string> := ["Arrow Left", "Arrow Right", "Double Arrow", "Pointing", "Up Arrow", "Circle Arrow"]
  const BracketsAndFramesNames: seq<string> := ["Square Brackets", "Curly Brackets", "Angle Brackets", "Double Brackets", "Corner Brackets", "Rounded", "Heavy Brackets"]
  const FireAndEnergyNames: seq<string> := ["Fire", "Lightning", "Energy", "Explosion", "Spark"]
  const MusicAndPartyNames: seq<string> := ["Music", "Party", "Celebration", "Dance", "Disco"]
  const AnimalsAndCuteNames: seq<string> := ["Cat", "Dog", "Bear", "Panda", "Unicorn", "Butterfly"]
  const FoodAndTreatsNames: seq<string> := ["Cake", "Ice Cream", "Candy", "Cookie", "Donut"]
  const TimeAndDateNames: seq<string> := ["With Time", "Time Prefix", "Time Suffix", "Digital Time", "Date & Time", "Timed Message", "Seconds Counter"]
  const CelestialNames: seq<string> := ["Moon", "Sun", "Rainbow", "Cloud", "Thunder"]
  const EmojisAndFacesNames: seq<string> := ["Happy", "Excited", "Cool", "Wink", "Tongue"]
  const SpecialNames: seq<string> := ["Infinity", "Peace", "Yin Yang", "Anchor", "Key"]
  const GeometricNames: seq<string> := ["Triangle", "Circle", "Square", "Hexagon", "Star Shape"]
  const BasicNames: seq<string> := ["Normal"]

  /** `fontStyleCategories`: category title and its style names, in
      declaration order. */
  const Categories: seq<(string, seq<string>)> := [
    ("Hearts & Love", HeartsAndLoveNames),
    ("Stars & Sparkles", StarsAndSparklesNames),
    ("Flowers & Nature", FlowersAndNatureNames),
    ("Decorative", DecorativeNames),
    ("Arrows & Symbols", ArrowsAndSymbolsNames),
    ("Brackets & Frames", BracketsAndFramesNames),
    ("Fire & Energy", FireAndEnergyNames),
    ("Music & Party", MusicAndPartyNames),
    ("Animals & Cute", AnimalsAndCuteNames),
    ("Food & Treats", FoodAndTreatsNames),
    ("Time & Date", TimeAndDateNames),
    ("Celestial", CelestialNames),
    ("Emojis & Faces", EmojisAndFacesNames),
    ("Special", SpecialNames),
    ("Geometric", GeometricNames),
    ("Basic", BasicNames)
  ]

  // Each category's names are styles of the matching template group; one
  // lemma per group keeps every proof small.
  lemma HeartsAndLoveNamesListed()
    ensures forall n :: n in HeartsAndLoveNames ==> n in HeartsAndLove
  {
  }
  lemma StarsAndSparklesNamesListed()
    ensures forall n :: n in StarsAndSparklesNames ==> n in StarsAndSparkles
  {
  }
  lemma FlowersAndNatureNamesListed()
    ensures forall n :: n in FlowersAndNatureNames ==> n in FlowersAndNature
  {
  }
  lemma DecorativeNamesListed()
    ensures forall n :: n in DecorativeNames ==> n in DecorativeBorders
  {
  }
  lemma ArrowsAndSymbolsNamesListed()
    ensures forall n :: n in ArrowsAndSymbolsNames ==> n in ArrowsAndSymbols
  {
  }
  lemma BracketsAndFramesNamesListed()
    ensures forall n :: n in BracketsAndFramesNames ==> n in BracketsAndFrames
  {
  }
  lemma FireAndEnergyNamesListed()
    ensures forall n :: n in FireAndEnergyNames ==> n in FireAndEnergy
  {
  }
  lemma MusicAndPartyNamesListed()
    ensures forall n :: n in MusicAndPartyNames ==> n in MusicAndParty
  {
  }
  lemma AnimalsAndCuteNamesListed()
    ensures forall n :: n in AnimalsAndCuteNames ==> n in AnimalsAndCute
  {
  }
  lemma FoodAndTreatsNamesListed()
    ensures forall n :: n in FoodAndTreatsNames ==> n in FoodAndTreats
  {
  }
  lemma TimeAndDateNamesListed(clock: LoadClock)
    ensures forall n :: n in TimeAndDateNames ==> n in TimeAndDate(clock)
  {
  }
  lemma CelestialNamesListed()
    ensures forall n :: n in CelestialNames ==> n in Celestial
  {
  }
  lemma EmojisAndFacesNamesListed()
    ensures forall n :: n in EmojisAndFacesNames ==> n in EmojisAndFaces
  {
  }
  lemma SpecialNamesListed()
    ensures forall n :: n in SpecialNames ==> n in SpecialCharacters
  {
  }
  lemma GeometricNamesListed()
    ensures forall n :: n in GeometricNames ==> n in Geometric
  {
  }
  lemma BasicNamesListed()
    ensures forall n :: n in BasicNames ==> n in BasicStyles
  {
  }

  /** Every name a category lists is a style of the catalog. */
  lemma CategoriesNameStyles(clock: LoadClock)
    ensures forall i, n :: 0 <= i < |Categories| && n in Categories[i].1 ==> n in FontStyles(clock)
  {
    HeartsAndLoveNamesListed();
    StarsAndSparklesNamesListed();
    FlowersAndNatureNamesListed();
    DecorativeNamesListed();
    ArrowsAndSymbolsNamesListed();
    BracketsAndFramesNamesListed();
    FireAndEnergyNamesListed();
    MusicAndPartyNamesListed();
    AnimalsAndCuteNamesListed();
    FoodAndTreatsNamesListed();
    TimeAndDateNamesListed(clock);
    CelestialNamesListed();
    EmojisAndFacesNamesListed();
    SpecialNamesListed();
    GeometricNamesListed();
    BasicNamesListed();
  }

  /** The positions at which `t` occurs in `s`. */
  ghost function Positions(s: string, t: string): set<int> {
    set j | 0 <= j <= |s| && OccursAt(s, t, j)
  }

  /** In a template, the only dollar signs are the two ends of the
      placeholder. */
  lemma DollarPositions(t: Template, i: int)
    requires 0 <= i < |t.Text()|
    ensures t.Text()[i] == '$' ==> i == |t.pre| || i == |t.pre| + |Token| - 1
  {
    var s := t.Text();
    if i < |t.pre| {
      assert s[i] == t.pre[i];
    } else if i >= |t.pre| + |Token| {
      assert s[i] == t.suf[i - |t.pre| - |Token|];
    } else {
      assert s[i] == Token[i - |t.pre|];
    }
  }

  /** Every template holds the placeholder exactly once, right after its
      prefix. */
  lemma TemplatePlaceholderOnce(t: Template)
    ensures Positions(t.Text(), Token) == {|t.pre|}
  {
    var s := t.Text();
    var p := |t.pre|;
    assert OccursAt(s, Token, p) by { assert s[p..p + |Token|] == Token; }
    forall j | 0 <= j <= |s| && OccursAt(s, Token, j) ensures j == p {
      assert s[j] == s[j..j + |Token|][0] == '$';
      assert s[j + 5] == s[j..j + |Token|][5] == '$';
      DollarPositions(t, j);
      DollarPositions(t, j + 5);
    }
  }

  /** Every template of the catalog holds `$TEXT$` exactly once. */
  lemma CatalogPlaceholderOnce(clock: LoadClock)
    ensures forall n :: n in FontStyles(clock) ==>
      Positions(FontStyles(clock)[n], Token) == {|Templates(clock)[n].pre|}
  {
    forall n | n in FontStyles(clock)
      ensures Positions(FontStyles(clock)[n], Token) == {|Templates(clock)[n].pre|}
    {
      TemplatePlaceholderOnce(Templates(clock)[n]);
    }
  }
}

=== FILE: generator.dfy ===
/** `generateRepeatedText`: the base text, optionally closed with a period,
    repeated a given number of times, each occurrence optionally prefixed
    with its ordinal or its percentage of the total, the occurrences joined
    by the separator the options compose. Three code paths build the result
    (native `repeat` when no option is set, a single join up to 1000
    repetitions, batches of 1000 beyond that); all three produce the direct
    join below. */
module Generator {
  import opened Strings
  import opened Settings

  /** Repetitions per batch on the chunked path. */
  const ChunkSize: nat := 1000

  /** `processedText`: with `addPeriod`, the base text closed by a period,
      unless it already ends with one. */
  function ProcessText(base: string, addPeriod: bool): (p: string)
    ensures addPeriod ==> EndsWith(p, ".")
    ensures !addPeriod ==> p == base
    ensures addPeriod ==> p == base || p == base + "."
    ensures EndsWith(base, ".") ==> p == base
  {
    if addPeriod && !EndsWith(base, ".") then base + "." else base
  }

  /** Closing the text with a period twice is closing it once. */
  lemma PeriodNotDoubled(base: string)
    ensures ProcessText(ProcessText(base, true), true) == ProcessText(base, true)
  {
  }

  /** The separator: a newline when `addNewLine`, then a space when
      `addSpace`. */
  function Separator(o: Options): (sep: string)
    ensures |sep| == (if o.addNewLine then 1 else 0) + (if o.addSpace then 1 else 0)
    ensures o.addNewLine ==> sep[0] == '\n'
    ensures o.addSpace ==> sep[|sep| - 1] == ' '
  {
    (if o.addNewLine then "\n" else "") + (if o.addSpace then " " else "")
  }

  /** None of the three possible separators overlaps itself, so splitting
      on it cuts exactly where it was inserted. */
  lemma SeparatorUnbordered(o: Options)
    ensures Unbordered(Separator(o))
  {
  }

  /** `Math.round(100 * i / total)`, computed exactly: half-way values are
      rounded up. */
  function Percent(i: nat, total: nat): (r: int)
    requires total > 0
    ensures 2 * total * r - total <= 200 * i < 2 * total * r + total
  {
    (200 * i + total) / (2 * total)
  }

  /** The percentages never decrease along the output. */
  lemma PercentMonotone(i: nat, j: nat, total: nat)
    requires 0 < total && i <= j
    ensures Percent(i, total) <= Percent(j, total)
  {
    var a, b := Percent(i, total), Percent(j, total);
    if b < a {
      assert 2 * total * (b + 1) <= 2 * total * a by {
        MulMonotone(2 * total, b + 1, a);
      }
    }
  }

  /** Multiplying by a non-negative factor keeps the order. */
  lemma MulMonotone(c: nat, x: int, y: int)
    requires x <= y
    ensures c * x <= c * y
  {
  }

  /** The percentage of an occurrence lies between 0 and 100, and the last
      occurrence is at 100. */
  lemma PercentBounds(i: nat, total: nat)
    requires 1 <= i <= total
    ensures 0 <= Percent(i, total) <= 100
    ensures i == total ==> Percent(i, total) == 100
  {
    var r := Percent(i, total);
    if r < 0 {
      MulMonotone(2 * total, r, -1);
    }
    if r > 100 {
      MulMonotone(2 * total, 101, r);
    }
    if i == total {
      if r < 100 {
        MulMonotone(2 * total, r, 99);
      }
    }
  }

  /** Occurrence `i` (from 1) of `total`: the processed text, behind its
      ordinal with `addNumbers`, else behind its percentage with
      `addPercentages`. */
  function Occurrence(p: string, o: Options, total: nat, i: nat): string
    requires 1 <= i <= total
  {
    if o.addNumbers then NatToString(i) + ". " + p
    else if o.addPercentages then NatToString(Percent(i, total)) + "% " + p
    else p
  }

  /** Occurrences `lo + 1` to `lo + n` of `total`. */
  function Occurrences(p: string, o: Options, total: nat, lo: nat, n: nat): (occ: seq<string>)
    requires lo + n <= total
  {
    seq(n, k requires 0 <= k < n => Occurrence(p, o, total, lo + k + 1))
  }

  /** The prefix of an occurrence reads back as its ordinal with
      `addNumbers` (which wins over `addPercentages`), or as its percentage
      with `addPercentages` alone: the leading numeral, then `". "` or
      `"% "`, then the processed text. */
  lemma EnumeratorReadBack(p: string, o: Options, total: nat, i: nat)
    requires 1 <= i <= total && (o.addNumbers || o.addPercentages)
    ensures var occ := Occurrence(p, o, total, i);
            var k := LeadingDigits(occ);
            k + 2 <= |occ| && occ[k + 2..] == p
            && ParseDecimal(occ[..k]) == (if o.addNumbers then i else Percent(i, total))
            && occ[k..k + 2] == (if o.addNumbers then ". " else "% ")
  {
    var n := if o.addNumbers then i else Percent(i, total);
    var mark := if o.addNumbers then ". " else "% ";
    var d := NatToString(n);
    var occ := Occurrence(p, o, total, i);
    assert occ == d + (mark + p);
    LeadingDigitsOfNumeral(d, mark + p);
    ParseNatToString(n);
    assert occ[..|d|] == d;
    assert occ[|d|..|d| + 2] == mark;
    assert occ[|d| + 2..] == p;
  }

  /** Two adjacent runs of occurrences make one run. */
  lemma OccurrencesAppend(p: string, o: Options, total: nat, lo: nat, m: nat, n: nat)
    requires lo + m + n <= total
    ensures Occurrences(p, o, total, lo, m) + Occurrences(p, o, total, lo + m, n)
         == Occurrences(p, o, total, lo, m + n)
  {
  }

  /** The direct build: all occurrences in one array, joined once. */
  function DirectJoin(p: string, o: Options, total: nat): string {
    Join(Occurrences(p, o, total, 0, total), Separator(o))
  }

  /** What `generateRepeatedText` produces, stated as the direct build. */
  function Expected(base: string, repetitions: int, o: Options): string {
    if base == "" || repetitions <= 0 then ""
    else DirectJoin(ProcessText(base, o.addPeriod), o, repetitions)
  }

  /** `Math.ceil(total / 1000)` batches cover the batch starts below `total`. */
  lemma ChunkCount(total: nat, i: nat)
    ensures i < (total + ChunkSize - 1) / ChunkSize <==> i * ChunkSize < total
  {
    var q := (total + ChunkSize - 1) / ChunkSize;
    assert total + ChunkSize - 1 == ChunkSize * q + (total + ChunkSize - 1) % ChunkSize;
    if i < q {
      MulMonotone(ChunkSize, i, q - 1);
    } else {
      MulMonotone(ChunkSize, q, i);
    }
  }

  /** Appending the next batch after a separator continues the direct build. */
  lemma BatchStep(p: string, o: Options, total: nat, done: nat, n: nat)
    requires 0 < done && 0 < n && done + n <= total
    ensures Join(Occurrences(p, o, total, 0, done), Separator(o)) + Separator(o)
              + Join(Occurrences(p, o, total, done, n), Separator(o))
         == Join(Occurrences(p, o, total, 0, done + n), Separator(o))
  {
    OccurrencesAppend(p, o, total, 0, done, n);
    JoinAppend(Occurrences(p, o, total, 0, done), Occurrences(p, o, total, done, n), Separator(o));
  }

  /** The chunked build: `ceil(total / 1000)` batches of at most 1000
      occurrences, numbered globally, with a separator between batches when
      the separator is not empty. */
  method BuildChunked(p: string, o: Options, total: nat) returns (r: string)
    ensures r == DirectJoin(p, o, total)
  {
    var sep := Separator(o);
    var chunks := (total + ChunkSize - 1) / ChunkSize;
    r := "";
    var i, done := 0, 0;
    ChunkCount(total, 0);
    while i < chunks
      invariant 0 <= i <= chunks && done <= total
      invariant i < chunks <==> done < total
      invariant i < chunks ==> done == i * ChunkSize
      invariant done == 0 ==> r == ""
      invariant 0 < done ==> r == Join(Occurrences(p, o, total, 0, done), sep) + (if done < total then sep else "")
    {
      var remaining := if ChunkSize < total - done then ChunkSize else total - done;
      r := AppendBatch(p, o, total, r, done, remaining, i < chunks - 1);
      ChunkCount(total, i + 1);
      i, done := i + 1, done + remaining;
    }
  }

  /** One batch of the chunked build: occurrences `done + 1` to
      `done + n`, joined and appended, then the separator when more batches
      follow and it is not empty. */
  method AppendBatch(p: string, o: Options, total: nat, acc: string, done: nat, n: nat, more: bool)
    returns (r: string)
    requires 0 < n && done + n <= total
    requires done == 0 ==> acc == ""
    requires 0 < done ==> acc == Join(Occurrences(p, o, total, 0, done), Separator(o)) + Separator(o)
    ensures more ==> r == Join(Occurrences(p, o, total, 0, done + n), Separator(o)) + Separator(o)
    ensures !more ==> r == Join(Occurrences(p, o, total, 0, done + n), Separator(o))
  {
    var sep := Separator(o);
    var chunk := Join(Occurrences(p, o, total, done, n), sep);
    if done > 0 {
      BatchStep(p, o, total, done, n);
    }
    r := acc + chunk;
    if more && sep != "" {
      r := r + sep;
    }
  }

  /** `generateRepeatedText()`, all three paths. */
  method GenerateRepeatedText(base: string, repetitions: int, o: Options) returns (r: string)
    ensures r == Expected(base, repetitions, o)
  {
    if base == "" || repetitions <= 0 {
      return "";
    }
    var p := ProcessText(base, o.addPeriod);
    if !o.addNewLine && !o.addSpace && !o.addNumbers && !o.addPercentages {
      r := Repeat(p, repetitions);
      FastPathIsDirect(p, o, repetitions);
    } else if repetitions > ChunkSize {
      r := BuildChunked(p, o, repetitions);
    } else {
      r := DirectJoin(p, o, repetitions);
    }
  }

  /** With no option set, native `repeat` gives the direct build. */
  lemma FastPathIsDirect(p: string, o: Options, total: nat)
    requires !o.addNewLine && !o.addSpace && !o.addNumbers && !o.addPercentages
    ensures Repeat(p, total) == DirectJoin(p, o, total)
  {
    assert Occurrences(p, o, total, 0, total) == seq(total, _ => p);
    RepeatIsJoin(p, total);
  }

  // ---------------------------------------------------------------------------
  // Properties of the generated text
  // ---------------------------------------------------------------------------

  /** The generator gives the empty string exactly when the text is empty or
      the count is not positive. */
  lemma GeneratedEmptyIff(base: string, repetitions: int, o: Options)
    ensures Expected(base, repetitions, o) == "" <==> base == "" || repetitions <= 0
  {
    if base != "" && repetitions > 0 {
      var p := ProcessText(base, o.addPeriod);
      var occ := Occurrences(p, o, repetitions, 0, repetitions);
      JoinStartsWithFirst(occ, Separator(o));
      assert |occ[0]| >= |p| > 0;
    }
  }

  /** The Repeat button generates text (at once or after confirmation)
      exactly when the generator has something to produce: both test for
      an empty input and a non-positive count. */
  lemma GateAgreesWithGenerator(base: string, repetitions: int, o: Options)
    ensures RepeatGate(base != "", repetitions) in {ConfirmLarge, GenerateNow}
        <==> Expected(base, repetitions, o) != ""
  {
    GeneratedEmptyIff(base, repetitions, o);
  }

  /** The output is the occurrences with one separator between each two:
      `repetitions - 1` separators in all. */
  lemma SeparatorCount(base: string, repetitions: int, o: Options)
    requires base != "" && repetitions > 0
    ensures |Expected(base, repetitions, o)|
         == TotalLength(Occurrences(ProcessText(base, o.addPeriod), o, repetitions, 0, repetitions))
            + (repetitions - 1) * |Separator(o)|
  {
    JoinLength(Occurrences(ProcessText(base, o.addPeriod), o, repetitions, 0, repetitions), Separator(o));
  }

  /** With no option set the output is the text written `repetitions`
      times back to back. */
  lemma PlainRepeatLength(base: string, repetitions: int, o: Options)
    requires base != "" && repetitions > 0
    requires !o.addNewLine && !o.addSpace && !o.addNumbers && !o.addPercentages
    ensures |Expected(base, repetitions, o)| == repetitions * |ProcessText(base, o.addPeriod)|
  {
    FastPathIsDirect(ProcessText(base, o.addPeriod), o, repetitions);
  }

  /** Neither a newline nor a space appears in an occurrence of a text
      without them, except the space an enumerator puts after its number. */
  lemma OccurrenceChars(p: string, o: Options, total: nat, i: nat, c: char)
    requires 1 <= i <= total && c !in p && (c == '\n' || c == ' ')
    requires c == ' ' ==> !o.addNumbers && !o.addPercentages
    ensures c !in Occurrence(p, o, total, i)
  {
    if o.addNumbers {
      assert c !in NatToString(i);
    } else if o.addPercentages {
      assert c !in NatToString(Percent(i, total));
    }
  }

  /** When the separator is not empty, the text does not hold its first
      character, and a lone space separator does not meet the space of an
      enumerator, splitting the output on the separator gives back the
      occurrences one by one, in order. With a newline in the separator the
      text may hold spaces and any enumerator may be on. */
  lemma SplitRecoversOccurrences(base: string, repetitions: int, o: Options)
    requires base != "" && repetitions > 0 && Separator(o) != ""
    requires Separator(o)[0] !in base
    requires Separator(o) == " " ==> !o.addNumbers && !o.addPercentages
    ensures Split(Expected(base, repetitions, o), Separator(o))
         == Occurrences(ProcessText(base, o.addPeriod), o, repetitions, 0, repetitions)
  {
    var p := ProcessText(base, o.addPeriod);
    assert Separator(o)[0] !in p by {
      assert forall c :: c in p ==> c in base || c == '.';
    }
    var occ := Occurrences(p, o, repetitions, 0, repetitions);
    var sep := Separator(o);
    SeparatorUnbordered(o);
    forall k | 0 <= k < |occ| ensures Delimits(occ[k], sep) {
      OccurrenceChars(p, o, repetitions, k + 1, sep[0]);
      ContainsFirst(occ[k], sep);
      DelimitsWhenFree(occ[k], sep);
    }
    SplitJoin(occ, sep);
  }

  /** Three spaced repetitions of "Hi". */
  lemma SpacedExample()
    ensures Expected("Hi", 3, Options(false, false, true, false, false)) == "Hi Hi Hi"
  {
    var o := Options(false, false, true, false, false);
    assert Occurrences("Hi", o, 3, 0, 3) == ["Hi", "Hi", "Hi"];
  }

  /** Numbered repetitions with no separator run together. */
  lemma NumberedExample()
    ensures Expected("hi", 3, Options(false, false, false, true, false)) == "1. hi2. hi3. hi"
  {
    NumberedOccurrences();
  }

  lemma NumberedOccurrences()
    ensures Occurrences("hi", Options(false, false, false, true, false), 3, 0, 3)
         == ["1. hi", "2. hi", "3. hi"]
  {
    var o := Options(false, false, false, true, false);
    var occ := Occurrences("hi", o, 3, 0, 3);
    assert occ[0] == Occurrence("hi", o, 3, 1) == NatToString(1) + ". hi";
    assert occ[1] == Occurrence("hi", o, 3, 2) == NatToString(2) + ". hi";
    assert occ[2] == Occurrence("hi", o, 3, 3) == NatToString(3) + ". hi";
    assert NatToString(1) == "1";
    assert NatToString(2) == "2";
    assert NatToString(3) == "3";
    assert occ[0] == "1. hi" && occ[1] == "2. hi" && occ[2] == "3. hi";
  }

  /** Two repetitions with percentages, one per line. */
  lemma PercentExample()
    ensures Expected("go", 2, Options(false, true, false, false, true)) == "50% go\n100% go"
  {
    var o := Options(false, true, false, false, true);
    TwoOccurrences("go", o);
    HalfAndWhole();
    PercentOccurrence("go", 1, 2, 50, "50");
    PercentOccurrence("go", 2, 2, 100, "100");
  }

  /** Of two, the first is 50 per cent and the second 100, written out. */
  lemma HalfAndWhole()
    ensures Percent(1, 2) == 50 && Percent(2, 2) == 100
    ensures NatToString(50) == "50" && NatToString(100) == "100"
  {
    assert NatToString(5) == "5" && NatToString(10) == "10";
  }

  /** One occurrence with its percentage, for the example above. */
  lemma PercentOccurrence(p: string, i: nat, total: nat, pct: nat, numeral: string)
    requires 1 <= i <= total && Percent(i, total) == pct && NatToString(pct) == numeral
    ensures Occurrence(p, Options(false, true, false, false, true), total, i) == numeral + "% " + p
  {
  }

  /** The period option closes the text once. */
  lemma PeriodExample()
    ensures Expected("Done.", 2, Options(true, false, true, false, false)) == "Done. Done."
    ensures Expected("Go", 2, Options(true, false, true, false, false)) == "Go. Go."
  {
    var o := Options(true, false, true, false, false);
    assert Separator(o) == " ";
    assert EndsWith("Done.", ".");
    TwoOccurrences("Done.", o);
    assert !EndsWith("Go", ".");
    TwoOccurrences("Go", o);
  }

  /** Two repetitions: the first occurrence and the second, with the
      separator between. */
  lemma TwoOccurrences(base: string, o: Options)
    requires base != ""
    ensures Expected(base, 2, o)
         == Occurrence(ProcessText(base, o.addPeriod), o, 2, 1) + Separator(o)
            + Occurrence(ProcessText(base, o.addPeriod), o, 2, 2)
  {
    var p := ProcessText(base, o.addPeriod);
    var occ := Occurrences(p, o, 2, 0, 2);
    var first, second := Occurrence(p, o, 2, 1), Occurrence(p, o, 2, 2);
    assert occ == [first, second];
    assert occ[1..] == [second];
    assert Join(occ, Separator(o)) == first + Separator(o) + second;
    assert Expected(base, 2, o) == DirectJoin(p, o, 2);
  }
}

=== FILE: preview.dfy ===
/** The two style previews: the chip of the Home screen's style picker,
    which decorates every space-separated word of its sample, and the card of
    the font style screen, which decorates its sample once and, for the Time
    and Date styles, refreshes the clock and drops double quotes from the
    template. */
module Preview {
  import opened Strings
  import opened Catalog
  import opened Styler

  /** `renderStylePreview(style)`: the sample unchanged when the style has no
      template; otherwise every word of `sample.split(' ')` filled into the
      template and the results joined by spaces, or, for a single word, the
      whole sample filled in. */
  function RenderStylePreview(style: string, styles: map<string, string>, sample: string): (r: string)
    ensures TemplateOf(styles, style) == "" ==> r == sample
  {
    var template := TemplateOf(styles, style);
    if template == "" then sample
    else
      var words := Split(sample, " ");
      if |words| > 1 then Join(FillEach(template, words), " ")
      else Put(template, sample)
  }

  /** Every word filled into the template. */
  function FillEach(template: string, words: seq<string>): seq<string>
  {
    seq(|words|, i requires 0 <= i < |words| => Put(template, words[i]))
  }

  /** Both branches decorate word by word: with a single word, that word is
      the whole sample. */
  lemma RenderDecoratesEachWord(style: string, styles: map<string, string>, sample: string)
    requires TemplateOf(styles, style) != ""
    ensures RenderStylePreview(style, styles, sample)
         == Join(FillEach(TemplateOf(styles, style), Split(sample, " ")), " ")
  {
    var words := Split(sample, " ");
    if |words| == 1 {
      JoinSplit(sample, " ");
      assert words == [sample];
      var filled := FillEach(TemplateOf(styles, style), words);
      assert filled == [Put(TemplateOf(styles, style), sample)];
    }
  }

  /** With a catalog template, every word lands between the prefix and the
      suffix, blank words included: two spaces in a row give a decorated
      empty word. */
  lemma RenderInTemplate(style: string, styles: map<string, string>, sample: string, t: Template)
    requires style in styles && styles[style] == t.Text()
    ensures RenderStylePreview(style, styles, sample) == Join(Decorated(t, Split(sample, " ")), " ")
  {
    assert TemplateOf(styles, style) == t.Text() != "";
    RenderDecoratesEachWord(style, styles, sample);
    var words := Split(sample, " ");
    var put := FillEach(t.Text(), words);
    var wrapped := Decorated(t, words);
    forall i | 0 <= i < |words| ensures put[i] == wrapped[i] {
      PutInTemplate(t, words[i]);
    }
    assert put == wrapped;
  }

  /** The bare placeholder previews the sample as it is. */
  lemma RenderPlaceholderIsIdentity(style: string, styles: map<string, string>, sample: string)
    requires style in styles && styles[style] == Token
    ensures RenderStylePreview(style, styles, sample) == sample
  {
    var bare := Template("", "");
    assert bare.Text() == Token;
    RenderInTemplate(style, styles, sample, bare);
    var words := Split(sample, " ");
    var same := Decorated(bare, words);
    assert forall i :: 0 <= i < |words| ==> same[i] == words[i];
    assert same == words;
    JoinSplit(sample, " ");
  }

  /** `previewResult` of a style card: the sample unchanged when the
      template is empty; otherwise the template, refreshed and stripped of
      its double quotes for a Time or Date style, with the sample filled in
      once. */
  function PreviewResult(styleName: string, template: string, sample: string, now: ClockReading): (r: string)
    ensures template == "" ==> r == sample
  {
    if template == "" then sample
    else
      var t := if IsClockStyle(styleName) then RemoveChar(RefreshClock(template, now), '"') else template;
      Put(t, sample)
  }

  /** A catalog template previews as its prefix, the sample, and its suffix;
      for a Time or Date style the double quotes go from the prefix and the
      suffix but those of the sample stay. */
  lemma PreviewInTemplate(styleName: string, t: Template, sample: string, now: ClockReading)
    ensures PreviewResult(styleName, t.Text(), sample, now)
         == if IsClockStyle(styleName)
            then RemoveChar(t.pre, '"') + sample + RemoveChar(t.suf, '"')
            else t.pre + sample + t.suf
  {
    assert t.Text() != "";
    if IsClockStyle(styleName) {
      TemplateHasNoClock(t);
      var pre, suf := RemoveChar(t.pre, '"'), RemoveChar(t.suf, '"');
      assert '$' !in pre && 'w' !in pre by {
        assert multiset(pre)['$'] == multiset(t.pre)['$'] && multiset(pre)['w'] == multiset(t.pre)['w'];
      }
      assert '$' !in suf && 'w' !in suf by {
        assert multiset(suf)['$'] == multiset(t.suf)['$'] && multiset(suf)['w'] == multiset(t.suf)['w'];
      }
      var stripped := Template(pre, suf);
      RemoveCharConcat(t.pre + Token, t.suf, '"');
      RemoveCharConcat(t.pre, Token, '"');
      RemoveCharAbsent(Token, '"');
      assert RemoveChar(t.Text(), '"') == stripped.Text();
      PutInTemplate(stripped, sample);
    } else {
      PutInTemplate(t, sample);
    }
  }
}

=== FILE: settings.dfy ===
/** The generation options and the Home screen's rules around them: the
    switch handler that keeps the two enumerators exclusive, the word count
    shown under the input, and the decision taken when the user asks for a
    repetition. */
module Settings {
  import opened Strings

  /** The five switches of the Home screen. */
  datatype Options = Options(
    addPeriod: bool,
    addNewLine: bool,
    addSpace: bool,
    addNumbers: bool,
    addPercentages: bool)
  {
    /** At most one enumerator is switched on. */
    predicate EnumeratorsExclusive() {
      !(addNumbers && addPercentages)
    }
  }

  /** The store's initial settings: every switch off. */
  const Initial: Options := Options(false, false, false, false, false)

  /** The name of one switch. */
  datatype Key = AddPeriod | AddNewLine | AddSpace | AddNumbers | AddPercentages

  /** The value of switch `k`. */
  function Get(o: Options, k: Key): bool {
    match k
    case AddPeriod => o.addPeriod
    case AddNewLine => o.addNewLine
    case AddSpace => o.addSpace
    case AddNumbers => o.addNumbers
    case AddPercentages => o.addPercentages
  }

  /** `{ ...settings, [k]: v }`. */
  function Set(o: Options, k: Key, v: bool): (r: Options)
    ensures Get(r, k) == v
    ensures forall k' :: k' != k ==> Get(r, k') == Get(o, k')
  {
    match k
    case AddPeriod => o.(addPeriod := v)
    case AddNewLine => o.(addNewLine := v)
    case AddSpace => o.(addSpace := v)
    case AddNumbers => o.(addNumbers := v)
    case AddPercentages => o.(addPercentages := v)
  }

  /** The enumerator that switching `k` on has to switch off, if any. */
  function Rival(k: Key): Option<Key> {
    match k
    case AddNumbers => Some(AddPercentages)
    case AddPercentages => Some(AddNumbers)
    case _ => None
  }

  /** `handleSettingChange(key, value)`: switching an enumerator on switches
      the other one off; every other change touches only its own switch. */
  function HandleSettingChange(o: Options, k: Key, v: bool): (r: Options)
    ensures Get(r, k) == v
    ensures k == AddNumbers && v ==> !r.addPercentages
    ensures k == AddPercentages && v ==> !r.addNumbers
    ensures forall k' :: k' != k && !(v && Rival(k) == Some(k')) ==> Get(r, k') == Get(o, k')
    ensures o.EnumeratorsExclusive() ==> r.EnumeratorsExclusive()
  {
    if k == AddNumbers && v then o.(addNumbers := true, addPercentages := false)
    else if k == AddPercentages && v then o.(addNumbers := false, addPercentages := true)
    else Set(o, k, v)
  }

  /** Switching an enumerator on always leaves the options exclusive,
      whatever they were before. */
  lemma EnumeratorOnRestoresExclusive(o: Options, k: Key)
    requires Rival(k).Some?
    ensures HandleSettingChange(o, k, true).EnumeratorsExclusive()
  {
  }

  /** Every sequence of switch changes from exclusive options, such as the
      store's initial ones, keeps the enumerators exclusive. */
  lemma {:induction false} ChangesKeepExclusive(o: Options, changes: seq<(Key, bool)>)
    requires o.EnumeratorsExclusive()
    ensures ApplyChanges(o, changes).EnumeratorsExclusive()
    decreases |changes|
  {
    if |changes| > 0 {
      ChangesKeepExclusive(HandleSettingChange(o, changes[0].0, changes[0].1), changes[1..]);
    }
  }

  /** From the store's initial settings, no sequence of switch changes ever
      turns both enumerators on. */
  lemma SessionKeepsExclusive(changes: seq<(Key, bool)>)
    ensures ApplyChanges(Initial, changes).EnumeratorsExclusive()
  {
    ChangesKeepExclusive(Initial, changes);
  }

  /** The options after a sequence of switch changes. */
  function ApplyChanges(o: Options, changes: seq<(Key, bool)>): Options
    decreases |changes|
  {
    if |changes| == 0 then o
    else ApplyChanges(HandleSettingChange(o, changes[0].0, changes[0].1), changes[1..])
  }

  // ---------------------------------------------------------------------------
  // Word count
  // ---------------------------------------------------------------------------

  /** `text.split(/\s+/)`: the pieces between maximal runs of whitespace; a
      leading or trailing run leaves an empty piece at that end. */
  function SplitOnSpaceRuns(s: string): (pieces: seq<string>)
    ensures |pieces| >= 1
    ensures forall i :: 0 <= i < |pieces| ==> forall j :: 0 <= j < |pieces[i]| ==> !IsSpace(pieces[i][j])
    decreases |s|
  {
    var k := FirstSpace(s, 0);
    if k == |s| then [s]
    else
      var e := EndOfRun(s, k);
      [s[..k]] + SplitOnSpaceRuns(s[e..])
  }

  /** The index of the first whitespace character at or after `from`, or `|s|`. */
  function FirstSpace(s: string, from: nat): (k: nat)
    requires from <= |s|
    ensures from <= k <= |s|
    ensures forall j :: from <= j < k ==> !IsSpace(s[j])
    ensures k < |s| ==> IsSpace(s[k])
    decreases |s| - from
  {
    if from == |s| || IsSpace(s[from]) then from else FirstSpace(s, from + 1)
  }

  /** The end of the whitespace run that starts at `k`. */
  function EndOfRun(s: string, k: nat): (e: nat)
    requires k < |s| && IsSpace(s[k])
    ensures k < e <= |s|
    ensures forall j :: k <= j < e ==> IsSpace(s[j])
    ensures e < |s| ==> !IsSpace(s[e])
    decreases |s| - k
  {
    if k + 1 < |s| && IsSpace(s[k + 1]) then EndOfRun(s, k + 1) else k + 1
  }

  /** `.filter(Boolean)`: drop the empty pieces. */
  function NonEmpty(pieces: seq<string>): (r: seq<string>)
    ensures |r| <= |pieces|
    ensures forall i :: 0 <= i < |r| ==> r[i] != ""
  {
    if |pieces| == 0 then []
    else (if pieces[0] == "" then [] else [pieces[0]]) + NonEmpty(pieces[1..])
  }

  /** The word count the Home screen shows for `text`. */
  function WordCount(text: string): nat {
    |NonEmpty(SplitOnSpaceRuns(text))|
  }

  /** The number of word beginnings in `s[from..]`: positions holding a
      non-whitespace character whose predecessor is whitespace, where
      `afterSpace` stands for the character before `from` (true at the very
      start of the text). */
  function CountStarts(s: string, from: nat, afterSpace: bool): nat
    requires from <= |s|
    decreases |s| - from
  {
    if from == |s| then 0
    else
      (if !IsSpace(s[from]) && afterSpace then 1 else 0)
      + CountStarts(s, from + 1, IsSpace(s[from]))
  }

  /** The word count is the number of maximal non-whitespace runs. */
  lemma {:induction false} WordCountCountsRuns(text: string)
    ensures WordCount(text) == CountStarts(text, 0, true)
  {
    RunsFrom(text, true);
  }

  /** Empty or all-whitespace text has no words; any other text has some. */
  lemma WordCountZeroIffBlank(text: string)
    ensures WordCount(text) == 0 <==> IsBlank(text)
  {
    WordCountCountsRuns(text);
    StartsZeroIffBlank(text, 0, true);
  }

  /** Counting from a whitespace boundary equals the split count. */
  lemma {:induction false} RunsFrom(s: string, afterSpace: bool)
    requires afterSpace
    ensures |NonEmpty(SplitOnSpaceRuns(s))| == CountStarts(s, 0, afterSpace)
    decreases |s|
  {
    var k := FirstSpace(s, 0);
    CountWithinWord(s, 0, k, afterSpace);
    if k == |s| {
      assert NonEmpty([s]) == (if s == "" then [] else [s]) + NonEmpty([]);
    } else {
      var e := EndOfRun(s, k);
      var rest := s[e..];
      CountAcrossRun(s, k, e);
      CountSuffix(s, e, true);
      RunsFrom(rest, true);
      var pieces := SplitOnSpaceRuns(s);
      assert pieces == [s[..k]] + SplitOnSpaceRuns(rest);
      assert pieces[1..] == SplitOnSpaceRuns(rest);
      assert s[..k] == "" <==> k == 0;
    }
  }

  /** A word that runs from `from` to `k` contributes one beginning when it
      is non-empty and starts after whitespace. */
  lemma {:induction false} CountWithinWord(s: string, from: nat, k: nat, afterSpace: bool)
    requires from <= k <= |s|
    requires forall j :: from <= j < k ==> !IsSpace(s[j])
    ensures CountStarts(s, from, afterSpace)
      == (if from < k && afterSpace then 1 else 0) + CountStarts(s, k, if from < k then false else afterSpace)
    decreases k - from
  {
    if from < k {
      CountWithinWord(s, from + 1, k, false);
    }
  }

  /** A whitespace run from `k` to `e` contributes no beginning. */
  lemma {:induction false} CountAcrossRun(s: string, k: nat, e: nat)
    requires k < e <= |s|
    requires forall j :: k <= j < e ==> IsSpace(s[j])
    ensures forall b :: CountStarts(s, k, b) == CountStarts(s, e, true)
    decreases e - k
  {
    if k + 1 < e {
      CountAcrossRun(s, k + 1, e);
    }
  }

  /** Counting from index `e` of `s` is counting from the start of `s[e..]`. */
  lemma {:induction false} CountSuffix(s: string, e: nat, b: bool)
    requires e <= |s|
    ensures CountStarts(s, e, b) == CountStarts(s[e..], 0, b)
    decreases |s| - e
  {
    if e < |s| {
      CountSuffix(s, e + 1, IsSpace(s[e]));
      CountSuffixShift(s, e, 1, IsSpace(s[e]));
      assert s[e..][0] == s[e];
    }
  }

  /** Counting in `s[e..]` from index `d` is counting in `s` from `e + d`. */
  lemma {:induction false} CountSuffixShift(s: string, e: nat, d: nat, b: bool)
    requires e + d <= |s|
    ensures CountStarts(s[e..], d, b) == CountStarts(s[e + d..], 0, b)
    decreases |s| - e - d
  {
    if e + d < |s| {
      assert s[e..][d] == s[e + d] == s[e + d..][0];
      CountSuffixShift(s, e, d + 1, IsSpace(s[e + d]));
      CountSuffixShift(s, e + d, 1, IsSpace(s[e + d]));
      assert s[e + d..][1..] == s[e + d + 1..];
      assert s[e..][d + 1..] == s[e + d + 1..];
    }
  }

  /** No beginning is counted exactly when the rest is whitespace. */
  lemma {:induction false} StartsZeroIffBlank(s: string, from: nat, afterSpace: bool)
    requires from <= |s| && afterSpace
    ensures CountStarts(s, from, afterSpace) == 0 <==> IsBlank(s[from..])
    decreases |s| - from
  {
    if from < |s| {
      StartsZeroIffBlank(s, from + 1, true);
      assert s[from..][0] == s[from];
      assert s[from..][1..] == s[from + 1..];
      if IsSpace(s[from]) {
        assert IsBlank(s[from..]) <==> IsBlank(s[from + 1..]) by {
          forall j | 0 <= j < |s| - from ensures s[from..][j] == s[from + j] { }
        }
      }
    }
  }

  // ---------------------------------------------------------------------------
  // The Repeat button
  // ---------------------------------------------------------------------------

  /** What pressing Repeat leads to. */
  datatype RepeatDecision =
    | WarnNoText          // "Please enter some text to repeat"
    | RejectCount         // "Please enter a valid number of repetitions"
    | ConfirmLarge        // asks before generating more than 5000 repetitions
    | GenerateNow

  /** Above this many repetitions the user is asked to confirm. */
  const LargeRepetitions: int := 5000

  /** `handleRepeat` as a decision, given whether the input holds text and
      the repetition count. */
  function RepeatGate(hasText: bool, repetitions: int): (d: RepeatDecision)
    ensures d == WarnNoText <==> !hasText
    ensures d == RejectCount <==> hasText && repetitions <= 0
    ensures d == ConfirmLarge <==> hasText && repetitions > LargeRepetitions
    ensures d == GenerateNow <==> hasText && 0 < repetitions <= LargeRepetitions
  {
    if !hasText then WarnNoText
    else if repetitions != 0 && repetitions > 0 then
      (if repetitions > LargeRepetitions then ConfirmLarge else GenerateNow)
    else RejectCount
  }
}

=== FILE: strings.dfy ===
/** The string primitives the text engine is built from, with the JavaScript
    meaning of each: `indexOf`, `split` on a string separator, `join`,
    `repeat`, `replace` with a string pattern, `trim`, `endsWith`, and the
    decimal rendering of an integer inside a template literal.

    Strings are sequences of Unicode scalar values; JavaScript works on UTF-16
    code units, which only matters for lengths, and no property here is about
    the length of a template. */
module Strings {

  datatype Option<+T> = None | Some(value: T)

  // ---------------------------------------------------------------------------
  // Whitespace, as `String.prototype.trim` and the regular expression `\s` see it
  // ---------------------------------------------------------------------------

  /** ECMAScript WhiteSpace (TAB, VT, FF, SPACE, NBSP, ZWNBSP and the Unicode
      space separators) together with LineTerminator (LF, CR, LS, PS). */
  predicate IsSpace(c: char) {
    || c == '\t' || c == '\U{000B}' || c == '\U{000C}' || c == ' '
    || c == '\U{00A0}' || c == '\U{FEFF}' || c == '\U{1680}'
    || ('\U{2000}' <= c <= '\U{200A}')
    || c == '\U{202F}' || c == '\U{205F}' || c == '\U{3000}'
    || c == '\n' || c == '\r' || c == '\U{2028}' || c == '\U{2029}'
  }

  /** Every character is whitespace (the empty string included). */
  predicate IsBlank(s: string) {
    forall i :: 0 <= i < |s| ==> IsSpace(s[i])
  }

  /** Number of leading whitespace characters. */
  function LeadingSpaces(s: string): (k: nat)
    ensures k <= |s|
    ensures forall i :: 0 <= i < k ==> IsSpace(s[i])
    ensures k < |s| ==> !IsSpace(s[k])
  {
    if |s| > 0 && IsSpace(s[0]) then 1 + LeadingSpaces(s[1..]) else 0
  }

  /** Number of trailing whitespace characters. */
  function TrailingSpaces(s: string): (k: nat)
    ensures k <= |s|
    ensures forall i :: |s| - k <= i < |s| ==> IsSpace(s[i])
    ensures k < |s| ==> !IsSpace(s[|s| - k - 1])
  {
    if |s| > 0 && IsSpace(s[|s| - 1]) then 1 + TrailingSpaces(s[..|s| - 1]) else 0
  }

  /** `s.trim()`: both ends stripped of whitespace. */
  function Trim(s: string): string {
    var t := s[LeadingSpaces(s)..];
    t[..|t| - TrailingSpaces(t)]
  }

  /** `!s.trim()` holds exactly for the blank strings. */
  lemma TrimEmptyIffBlank(s: string)
    ensures Trim(s) == "" <==> IsBlank(s)
  {
    var k := LeadingSpaces(s);
    var t := s[k..];
    if k < |s| {
      assert t[0] == s[k];
    }
  }

  // ---------------------------------------------------------------------------
  // Substring search
  // ---------------------------------------------------------------------------

  /** `t` occurs in `s` starting at index `k`. */
  predicate OccursAt(s: string, t: string, k: int) {
    0 <= k && k + |t| <= |s| && s[k..k + |t|] == t
  }

  /** `s.indexOf(t, from)`, or None where JavaScript answers -1. */
  function FirstIndexFrom(s: string, t: string, from: nat): (r: Option<nat>)
    ensures r.Some? ==> from <= r.value && OccursAt(s, t, r.value)
    ensures r.Some? ==> forall j :: from <= j < r.value ==> !OccursAt(s, t, j)
    ensures r.None? ==> forall j :: from <= j ==> !OccursAt(s, t, j)
    decreases |s| - from
  {
    if from + |t| > |s| then None
    else if s[from..from + |t|] == t then Some(from)
    else FirstIndexFrom(s, t, from + 1)
  }

  /** `s.indexOf(t)`. */
  function FirstIndex(s: string, t: string): Option<nat> {
    FirstIndexFrom(s, t, 0)
  }

  /** `s.includes(t)`. */
  predicate Contains(s: string, t: string) {
    FirstIndex(s, t).Some?
  }

  /** An occurrence inside a prefix is an occurrence in the whole string. */
  lemma OccursInPrefix(s: string, u: string, t: string, k: int)
    ensures OccursAt(s, t, k) ==> OccursAt(s + u, t, k)
  {
    if OccursAt(s, t, k) {
      assert (s + u)[k..k + |t|] == s[k..k + |t|];
    }
  }

  /** What a prefix contains, the whole string contains. */
  lemma ContainsInPrefix(s: string, u: string, t: string)
    ensures Contains(s, t) ==> Contains(s + u, t)
  {
    if Contains(s, t) {
      OccursInPrefix(s, u, t, FirstIndex(s, t).value);
    }
  }

  /** An occurrence starts with the first character of the pattern. */
  lemma OccursAtHead(s: string, t: string, k: int)
    requires |t| > 0 && 0 <= k < |s|
    ensures OccursAt(s, t, k) ==> s[k] == t[0]
  {
    if OccursAt(s, t, k) {
      assert s[k..k + |t|][0] == s[k];
    }
  }

  /** If `s` begins with `a + t` and no character of `a` starts `t`, the
      first occurrence of `t` in `s` is right after `a`. */
  lemma FirstIndexAfter(a: string, t: string, b: string)
    requires |t| > 0 && t[0] !in a
    ensures FirstIndex(a + t + b, t) == Some(|a|)
  {
    var s := a + t + b;
    assert OccursAt(s, t, |a|) by { assert s[|a|..|a| + |t|] == t; }
    forall j | 0 <= j < |a| ensures !OccursAt(s, t, j) {
      OccursAtHead(s, t, j);
      assert s[j] == a[j];
    }
  }

  // ---------------------------------------------------------------------------
  // `split` and `join` with a string separator
  // ---------------------------------------------------------------------------

  /** `s.split(sep)` for a non-empty separator: the pieces between the
      successive leftmost non-overlapping occurrences of `sep`. */
  function Split(s: string, sep: string): (parts: seq<string>)
    requires |sep| > 0
    ensures |parts| >= 1
    ensures forall i :: 0 <= i < |parts| ==> !Contains(parts[i], sep)
    decreases |s|
  {
    match FirstIndex(s, sep)
    case None => [s]
    case Some(k) =>
      assert !Contains(s[..k], sep) by {
        forall j | 0 <= j ensures !OccursAt(s[..k], sep, j) {
          OccursInPrefix(s[..k], s[k..], sep, j);
          assert s[..k] + s[k..] == s;
        }
      }
      [s[..k]] + Split(s[k + |sep|..], sep)
  }

  /** `parts.join(sep)`. */
  function Join(parts: seq<string>, sep: string): string {
    if |parts| == 0 then ""
    else if |parts| == 1 then parts[0]
    else parts[0] + sep + Join(parts[1..], sep)
  }

  /** Sum of the lengths of the pieces. */
  function TotalLength(parts: seq<string>): nat {
    if |parts| == 0 then 0 else |parts[0]| + TotalLength(parts[1..])
  }

  /** A join is as long as its pieces plus one separator between each two. */
  lemma {:induction false} JoinLength(parts: seq<string>, sep: string)
    requires |parts| >= 1
    ensures |Join(parts, sep)| == TotalLength(parts) + (|parts| - 1) * |sep|
  {
    if |parts| > 1 {
      JoinLength(parts[1..], sep);
    }
  }

  /** Joining a concatenation of two non-empty lists puts one separator at
      the seam. */
  lemma {:induction false} JoinAppend(a: seq<string>, b: seq<string>, sep: string)
    requires |a| >= 1 && |b| >= 1
    ensures Join(a + b, sep) == Join(a, sep) + sep + Join(b, sep)
  {
    if |a| == 1 {
      assert (a + b)[1..] == b;
    } else {
      assert (a + b)[1..] == a[1..] + b;
      JoinAppend(a[1..], b, sep);
    }
  }

  /** The join of a list begins with its first element. */
  lemma JoinStartsWithFirst(parts: seq<string>, sep: string)
    requires |parts| >= 1
    ensures parts[0] <= Join(parts, sep)
  {
  }

  /** Splitting and joining again gives back the string. */
  lemma {:induction false} JoinSplit(s: string, sep: string)
    requires |sep| > 0
    ensures Join(Split(s, sep), sep) == s
    decreases |s|
  {
    var first := FirstIndex(s, sep);
    if first.Some? {
      var k := first.value;
      var rest := s[k + |sep|..];
      var parts := Split(s, sep);
      assert parts == [s[..k]] + Split(rest, sep);
      assert parts[1..] == Split(rest, sep);
      JoinSplit(rest, sep);
      assert Join(parts, sep) == s[..k] + sep + rest;
      assert s[k..k + |sep|] == sep;
      assert s == s[..k] + s[k..k + |sep|] + rest;
    }
  }

  /** The first occurrence of `sep` in `p + sep` is the appended one: the
      piece `p` is delimited cleanly when followed by the separator. */
  predicate Delimits(p: string, sep: string) {
    forall j :: 0 <= j < |p| ==> !OccursAt(p + sep, sep, j)
  }

  /** No proper prefix of `sep` equals the suffix of the same length. */
  predicate Unbordered(sep: string) {
    forall k :: 0 < k < |sep| ==> sep[..k] != sep[|sep| - k..]
  }

  /** An occurrence that ends inside a prefix is an occurrence in the prefix. */
  lemma OccursWithin(s: string, u: string, t: string, k: int)
    requires k + |t| <= |s|
    ensures OccursAt(s + u, t, k) ==> OccursAt(s, t, k)
  {
    if OccursAt(s + u, t, k) {
      assert (s + u)[k..k + |t|] == s[k..k + |t|];
    }
  }

  /** An occurrence of `sep` in `p + sep` that straddles the seam exhibits a
      border of `sep`. */
  lemma StraddleBorder(p: string, sep: string, j: int)
    requires 0 <= j < |p| < j + |sep|
    ensures OccursAt(p + sep, sep, j) ==>
      var k := |sep| - (|p| - j); sep[..k] == sep[|sep| - k..]
  {
    var s := p + sep;
    var m := |p| - j;
    var k := |sep| - m;
    if OccursAt(s, sep, j) {
      forall i | 0 <= i < k ensures sep[..k][i] == sep[|sep| - k..][i] {
        assert sep[|sep| - k + i] == s[j..j + |sep|][m + i] == s[j + m + i];
        assert s[j + m + i] == sep[i];
      }
    }
  }

  /** A piece free of an unbordered separator is delimited by it. */
  lemma DelimitsWhenFree(p: string, sep: string)
    requires |sep| > 0 && Unbordered(sep) && !Contains(p, sep)
    ensures Delimits(p, sep)
  {
    forall j | 0 <= j < |p| ensures !OccursAt(p + sep, sep, j) {
      if j + |sep| <= |p| {
        OccursWithin(p, sep, sep, j);
      } else {
        StraddleBorder(p, sep, j);
      }
    }
  }

  /** A delimited piece contains no separator. */
  lemma DelimitsNotContains(p: string, sep: string)
    requires |sep| > 0 && Delimits(p, sep)
    ensures !Contains(p, sep)
  {
    if Contains(p, sep) {
      var k := FirstIndex(p, sep).value;
      OccursInPrefix(p, sep, sep, k);
    }
  }

  /** Joining cleanly delimited pieces and splitting again gives back the
      pieces. */
  lemma {:induction false} SplitJoin(parts: seq<string>, sep: string)
    requires |sep| > 0 && |parts| >= 1
    requires forall i :: 0 <= i < |parts| ==> Delimits(parts[i], sep)
    ensures Split(Join(parts, sep), sep) == parts
  {
    var p := parts[0];
    if |parts| == 1 {
      DelimitsNotContains(p, sep);
    } else {
      var rest := Join(parts[1..], sep);
      var s := p + sep + rest;
      assert Join(parts, sep) == s;
      assert OccursAt(s, sep, |p|) by { assert s[|p|..|p| + |sep|] == sep; }
      forall j | 0 <= j < |p| ensures !OccursAt(s, sep, j) {
        OccursWithin(p + sep, rest, sep, j);
      }
      assert FirstIndex(s, sep) == Some(|p|);
      assert s[..|p|] == p;
      assert s[|p| + |sep|..] == rest;
      assert Split(s, sep) == [p] + Split(rest, sep);
      SplitJoin(parts[1..], sep);
      assert parts == [p] + parts[1..];
    }
  }

  // ---------------------------------------------------------------------------
  // `repeat`
  // ---------------------------------------------------------------------------

  /** `s.repeat(n)`. */
  function Repeat(s: string, n: nat): (r: string)
    ensures |r| == n * |s|
  {
    if n == 0 then "" else s + Repeat(s, n - 1)
  }

  /** `repeat` is the join of `n` copies with the empty separator. */
  lemma {:induction false} RepeatIsJoin(s: string, n: nat)
    ensures Repeat(s, n) == Join(seq(n, _ => s), "")
  {
    if n > 1 {
      RepeatIsJoin(s, n - 1);
      assert seq(n, _ => s)[1..] == seq(n - 1, _ => s);
    }
  }

  // ---------------------------------------------------------------------------
  // `replace` with a string pattern
  // ---------------------------------------------------------------------------

  /** Literal substitution of `rep` for the first occurrence of `pat`; the
      string is unchanged when `pat` does not occur. */
  function ReplaceFirst(s: string, pat: string, rep: string): (r: string)
    ensures !Contains(s, pat) ==> r == s
    ensures Contains(s, pat) ==> |r| == |s| - |pat| + |rep|
  {
    match FirstIndex(s, pat)
    case None => s
    case Some(k) => s[..k] + rep + s[k + |pat|..]
  }

  /** A template `a + pat + b` with no start of `pat` in `a` becomes
      `a + rep + b`: the inserted text appears verbatim, once. */
  lemma ReplaceFirstWrapped(a: string, pat: string, b: string, rep: string)
    requires |pat| > 0 && pat[0] !in a
    ensures ReplaceFirst(a + pat + b, pat, rep) == a + rep + b
  {
    FirstIndexAfter(a, pat, b);
    var s := a + pat + b;
    assert s[..|a|] == a;
    assert s[|a| + |pat|..] == b;
  }

  /** The replacement-pattern expansion JavaScript applies to the second
      argument of `replace` when the first is a string (GetSubstitution in
      ECMAScript): `$$` is a dollar, `$&` the matched text, `$\`` the text
      before the match, `$'` the text after it. With a string pattern there
      are no capture groups, so `$1` or `$<` stay as written. */
  function ExpandReplacement(rep: string, matched: string, before: string, after: string): (r: string)
    ensures '$' !in rep ==> r == rep
    decreases |rep|
  {
    if |rep| >= 2 && rep[0] == '$' && rep[1] == '$' then
      "$" + ExpandReplacement(rep[2..], matched, before, after)
    else if |rep| >= 2 && rep[0] == '$' && rep[1] == '&' then
      matched + ExpandReplacement(rep[2..], matched, before, after)
    else if |rep| >= 2 && rep[0] == '$' && rep[1] == '`' then
      before + ExpandReplacement(rep[2..], matched, before, after)
    else if |rep| >= 2 && rep[0] == '$' && rep[1] == '\'' then
      after + ExpandReplacement(rep[2..], matched, before, after)
    else if |rep| >= 1 then
      assert '$' !in rep ==> '$' !in rep[1..] by {
        forall c | c in rep[1..] ensures c in rep { }
      }
      [rep[0]] + ExpandReplacement(rep[1..], matched, before, after)
    else ""
  }

  /** `s.replace(pat, rep)` exactly as JavaScript evaluates it for a string
      pattern: the first occurrence is replaced by the expansion of `rep`. */
  function JsReplaceFirst(s: string, pat: string, rep: string): (r: string)
    ensures !Contains(s, pat) ==> r == s
    ensures '$' !in rep ==> r == ReplaceFirst(s, pat, rep)
  {
    match FirstIndex(s, pat)
    case None => s
    case Some(k) => s[..k] + ExpandReplacement(rep, pat, s[..k], s[k + |pat|..]) + s[k + |pat|..]
  }

  // ---------------------------------------------------------------------------
  // Other small helpers
  // ---------------------------------------------------------------------------

  /** A pattern occurs only where its first character does. */
  lemma ContainsFirst(s: string, t: string)
    ensures |t| > 0 && Contains(s, t) ==> t[0] in s
  {
    var k := FirstIndex(s, t);
    if |t| > 0 && k.Some? {
      assert s[k.value..k.value + |t|][0] == s[k.value];
    }
  }

  /** Wherever `a + b` occurs, `a` occurs. */
  lemma ContainsPrefix(s: string, a: string, b: string)
    ensures Contains(s, a + b) ==> Contains(s, a)
  {
    var k := FirstIndex(s, a + b);
    if k.Some? {
      assert s[k.value..k.value + |a|] == s[k.value..k.value + |a + b|][..|a|];
      assert OccursAt(s, a, k.value);
    }
  }

  /** `s.replace(/pat/g, rep)` for a regular expression that matches the
      literal text `pat` and a replacement without `$`: every leftmost
      non-overlapping occurrence replaced. */
  function ReplaceAll(s: string, pat: string, rep: string): (r: string)
    requires |pat| > 0
    ensures !Contains(s, pat) ==> r == s
  {
    Join(Split(s, pat), rep)
  }

  /** Replacing every occurrence of a pattern by itself changes nothing. */
  lemma ReplaceAllSelf(s: string, pat: string)
    requires |pat| > 0
    ensures ReplaceAll(s, pat, pat) == s
  {
    JoinSplit(s, pat);
  }

  /** A blank string has blank pieces. */
  lemma BlankConcat(a: string, b: string)
    ensures IsBlank(a + b) ==> IsBlank(a) && IsBlank(b)
  {
    if IsBlank(a + b) {
      forall j | 0 <= j < |b| ensures IsSpace(b[j]) {
        assert (a + b)[|a| + j] == b[j];
      }
      forall j | 0 <= j < |a| ensures IsSpace(a[j]) {
        assert (a + b)[j] == a[j];
      }
    }
  }

  /** Removing a character from a concatenation removes it from each part. */
  lemma {:induction false} RemoveCharConcat(a: string, b: string, c: char)
    ensures RemoveChar(a + b, c) == RemoveChar(a, c) + RemoveChar(b, c)
    decreases |a|
  {
    if |a| > 0 {
      assert (a + b)[0] == a[0];
      assert (a + b)[1..] == a[1..] + b;
      RemoveCharConcat(a[1..], b, c);
    } else {
      assert a + b == b;
    }
  }

  /** Removing a character that does not occur changes nothing. */
  lemma {:induction false} RemoveCharAbsent(s: string, c: char)
    requires c !in s
    ensures RemoveChar(s, c) == s
    decreases |s|
  {
    if |s| > 0 {
      assert c !in s[1..] by {
        forall d | d in s[1..] ensures d in s { }
      }
      RemoveCharAbsent(s[1..], c);
    }
  }

  /** `s.endsWith(t)`. */
  predicate EndsWith(s: string, t: string) {
    |t| <= |s| && s[|s| - |t|..] == t
  }

  /** `s.replace(/c/g, '')` for a single character `c`. */
  function RemoveChar(s: string, c: char): (r: string)
    ensures c !in r
    ensures forall d :: d != c ==> multiset(r)[d] == multiset(s)[d]
  {
    if |s| == 0 then ""
    else
      assert s == [s[0]] + s[1..];
      (if s[0] == c then "" else [s[0]]) + RemoveChar(s[1..], c)
  }

  /** The character of a decimal digit. */
  function DigitChar(d: nat): (c: char)
    requires d < 10
    ensures '0' <= c <= '9'
  {
    ((('0' as int) + d) as char)
  }

  /** Value of a decimal digit character. */
  function DigitValue(c: char): nat
    requires '0' <= c <= '9'
  {
    (c as int) - ('0' as int)
  }

  /** Every character is an ASCII digit. */
  predicate AllDigits(s: string) {
    forall i :: 0 <= i < |s| ==> '0' <= s[i] <= '9'
  }

  /** `${n}` for a non-negative integer: its shortest decimal numeral. */
  function NatToString(n: nat): (r: string)
    ensures |r| >= 1 && AllDigits(r)
    ensures r[0] == '0' ==> n == 0
  {
    if n < 10 then [DigitChar(n)]
    else NatToString(n / 10) + [DigitChar(n % 10)]
  }

  /** The value of a numeral. */
  function ParseDecimal(s: string): nat
    requires AllDigits(s)
  {
    if |s| == 0 then 0
    else 10 * ParseDecimal(s[..|s| - 1]) + DigitValue(s[|s| - 1])
  }

  /** Reading back the numeral gives the number. */
  lemma {:induction false} ParseNatToString(n: nat)
    ensures ParseDecimal(NatToString(n)) == n
  {
    var s := NatToString(n);
    if n >= 10 {
      ParseNatToString(n / 10);
      assert s[..|s| - 1] == NatToString(n / 10);
    }
  }

  /** Numerals of different numbers differ. */
  lemma NatToStringInjective(m: nat, n: nat)
    requires NatToString(m) == NatToString(n)
    ensures m == n
  {
    ParseNatToString(m);
    ParseNatToString(n);
  }

  /** Two joins `x + [c] + y` of digit strings around a non-digit character
      agree only piecewise. */
  lemma SplitAtMarker(x1: string, y1: string, x2: string, y2: string, c: char)
    requires AllDigits(x1) && AllDigits(x2) && !('0' <= c <= '9')
    requires x1 + [c] + y1 == x2 + [c] + y2
    ensures x1 == x2 && y1 == y2
  {
    var s := x1 + [c] + y1;
    assert s[|x1|] == c;
    assert forall i :: 0 <= i < |x1| ==> s[i] == x1[i];
    assert s == x2 + [c] + y2;
    assert s[|x2|] == c;
    assert forall i :: 0 <= i < |x2| ==> s[i] == x2[i];
    assert |x1| == |x2|;
    assert x1 == s[..|x1|] == x2;
    assert y1 == s[|x1| + 1..] == y2;
  }

  /** The number of decimal digits `s` starts with. */
  function LeadingDigits(s: string): (k: nat)
    ensures k <= |s| && AllDigits(s[..k])
    ensures k < |s| ==> !('0' <= s[k] <= '9')
  {
    if |s| > 0 && '0' <= s[0] <= '9' then
      var k := 1 + LeadingDigits(s[1..]);
      assert s[..k] == [s[0]] + s[1..][..k - 1];
      k
    else 0
  }

  /** A numeral followed by a non-digit is read up to its end. */
  lemma {:induction false} LeadingDigitsOfNumeral(d: string, rest: string)
    requires AllDigits(d) && |rest| > 0 && !('0' <= rest[0] <= '9')
    ensures LeadingDigits(d + rest) == |d|
    decreases |d|
  {
    if |d| > 0 {
      assert (d + rest)[1..] == d[1..] + rest;
      LeadingDigitsOfNumeral(d[1..], rest);
    } else {
      assert d + rest == rest;
    }
  }
}

=== FILE: stylelist.dfy ===
/** The font style screen's list: a flat sequence of category headers, each
    followed by the category's styles two to a row, and the index the list
    scrolls to for the selected style. */
module StyleList {
  import opened Strings
  import opened Styler

  /** A style shown in a row: its name and its template, `""` when the
      catalog has none. */
  datatype StyleEntry = StyleEntry(name: string, template: string)

  /** One element of the list. */
  datatype ListItem =
    | CategoryHeader(id: string, title: string)
    | StyleRow(id: string, styles: seq<StyleEntry>)

  /** `cat_${i}`. */
  function CategoryId(i: nat): string {
    "cat_" + NatToString(i)
  }

  /** `row_${i}_${Math.floor(j / 2)}` for the row starting at name `j = 2m`. */
  function RowId(i: nat, m: nat): string {
    "row_" + NatToString(i) + "_" + NatToString(m)
  }

  /** `{ name, template: availableFontStyles[name] || '' }`. */
  function Entry(name: string, styles: map<string, string>): StyleEntry {
    StyleEntry(name, TemplateOf(styles, name))
  }

  /** The styles of the row that starts at name `2m`: that name, and the
      next one when there is a next one and it is not empty. */
  function RowStyles(names: seq<string>, styles: map<string, string>, m: nat): (row: seq<StyleEntry>)
    requires 2 * m < |names|
    ensures 1 <= |row| <= 2 && row[0] == Entry(names[2 * m], styles)
    ensures |row| == 2 <==> 2 * m + 1 < |names| && names[2 * m + 1] != ""
    ensures |row| == 2 ==> row[1] == Entry(names[2 * m + 1], styles)
  {
    var first := [Entry(names[2 * m], styles)];
    if 2 * m + 1 < |names| && names[2 * m + 1] != "" then first + [Entry(names[2 * m + 1], styles)]
    else first
  }

  /** Row `m` of category `i`. */
  function RowItem(i: nat, names: seq<string>, styles: map<string, string>, m: nat): ListItem
    requires 2 * m < |names|
  {
    StyleRow(RowId(i, m), RowStyles(names, styles, m))
  }

  /** The rows of category `i`: one for every even name index `j = 2m`. */
  function Rows(i: nat, names: seq<string>, styles: map<string, string>): (rows: seq<ListItem>)
  {
    seq(RowCount(|names|), m requires 0 <= m < RowCount(|names|) => RowItem(i, names, styles, m))
  }

  /** Category `i`: its header, then its rows. */
  function Block(i: nat, category: (string, seq<string>), styles: map<string, string>): seq<ListItem> {
    [CategoryHeader(CategoryId(i), category.0)] + Rows(i, category.1, styles)
  }

  /** The blocks of the categories from index `i` on. */
  function ListFrom(categories: seq<(string, seq<string>)>, styles: map<string, string>, i: nat): seq<ListItem>
    decreases |categories| - i
  {
    if i >= |categories| then []
    else Block(i, categories[i], styles) + ListFrom(categories, styles, i + 1)
  }

  /** `listData`: every category in order, a header and then its rows. */
  function ListData(categories: seq<(string, seq<string>)>, styles: map<string, string>): seq<ListItem> {
    ListFrom(categories, styles, 0)
  }

  // ---------------------------------------------------------------------------
  // Shape and contents
  // ---------------------------------------------------------------------------

  /** Rows for `n` names, two to a row. */
  function RowCount(n: nat): nat {
    (n + 1) / 2
  }

  /** The styles `listData`'s row loop pushes for name index `j`:
      `styleNames[j]`, then `styleNames[j + 1]` when it exists and is not
      empty. */
  function LoopStyles(names: seq<string>, styles: map<string, string>, j: nat): seq<StyleEntry>
    requires j < |names|
  {
    [Entry(names[j], styles)]
      + if j + 1 < |names| && names[j + 1] != "" then [Entry(names[j + 1], styles)] else []
  }

  /** `listData`'s row loop `for (let j = 0; j < styleNames.length; j += 2)`
      of category `i`, from name index `j` on: the row with id
      `row_i_floor(j / 2)`, then the rows from `j + 2`. */
  function RowLoop(i: nat, names: seq<string>, styles: map<string, string>, j: nat): seq<ListItem>
    decreases |names| - j
  {
    if j < |names| then [StyleRow(RowId(i, j / 2), LoopStyles(names, styles, j))] + RowLoop(i, names, styles, j + 2)
    else []
  }

  /** One turn of the loop at name index `2m` pushes row `m`. */
  lemma RowLoopStep(i: nat, names: seq<string>, styles: map<string, string>, m: nat)
    requires 2 * m < |names|
    ensures RowLoop(i, names, styles, 2 * m) == [RowItem(i, names, styles, m)] + RowLoop(i, names, styles, 2 * m + 2)
  {
    assert (2 * m) / 2 == m;
    var pushed := LoopStyles(names, styles, 2 * m);
    var row := RowStyles(names, styles, m);
    if 2 * m + 1 < |names| && names[2 * m + 1] != "" {
      assert pushed == [Entry(names[2 * m], styles), Entry(names[2 * m + 1], styles)] == row;
    } else {
      assert pushed == [Entry(names[2 * m], styles)] == row;
    }
  }

  /** From name index `2m` on, the loop builds exactly the rows from row `m`
      on, for any sequence holding row `k` at every position `k`. */
  lemma {:induction false} RowLoopFrom(i: nat, names: seq<string>, styles: map<string, string>,
                                       rows: seq<ListItem>, m: nat)
    requires |rows| == RowCount(|names|) && 2 * m <= |names|
    requires forall k :: 0 <= k < |rows| ==> 2 * k < |names| && rows[k] == RowItem(i, names, styles, k)
    ensures m <= |rows| && RowLoop(i, names, styles, 2 * m) == rows[m..]
    decreases |names| - 2 * m
  {
    if 2 * m < |names| {
      RowLoopStep(i, names, styles, m);
      var later := RowLoop(i, names, styles, 2 * m + 2);
      if 2 * m + 2 <= |names| {
        RowLoopFrom(i, names, styles, rows, m + 1);
      } else {
        assert later == [] && rows[m + 1..] == [];
      }
      ConsSuffix(rows, m, RowItem(i, names, styles, m), later);
    } else {
      assert |rows| == m;
    }
  }

  /** An element followed by the suffix after it is the suffix from it. */
  lemma ConsSuffix(rows: seq<ListItem>, m: nat, x: ListItem, later: seq<ListItem>)
    requires m < |rows| && rows[m] == x && later == rows[m + 1..]
    ensures [x] + later == rows[m..]
  {
  }

  /** `listData`'s row loop, stepping by two from name 0, builds `RowCount(n)`
      rows, and the row at name index `2m` is row `m`. */
  lemma RowLoopIsRows(i: nat, names: seq<string>, styles: map<string, string>)
    ensures |RowLoop(i, names, styles, 0)| == RowCount(|names|)
    ensures RowLoop(i, names, styles, 0) == Rows(i, names, styles)
  {
    var rows := Rows(i, names, styles);
    RowLoopFrom(i, names, styles, rows, 0);
    assert rows[0..] == rows;
  }

  /** The number of list items of the categories from index `i` on: one
      header and `RowCount` rows each. */
  function ItemCount(categories: seq<(string, seq<string>)>, i: nat): nat
    decreases |categories| - i
  {
    if i >= |categories| then 0
    else 1 + RowCount(|categories[i].1|) + ItemCount(categories, i + 1)
  }

  /** The list has one header per category and `RowCount` rows under each. */
  lemma {:induction false} ListLength(categories: seq<(string, seq<string>)>, styles: map<string, string>, i: nat)
    ensures |ListFrom(categories, styles, i)| == ItemCount(categories, i)
    decreases |categories| - i
  {
    if i < |categories| {
      ListLength(categories, styles, i + 1);
    }
  }

  /** The names of some entries, in order. */
  function EntryNames(entries: seq<StyleEntry>): (names: seq<string>)
    ensures |names| == |entries|
    ensures forall k :: 0 <= k < |entries| ==> names[k] == entries[k].name
  {
    if |entries| == 0 then [] else [entries[0].name] + EntryNames(entries[1..])
  }

  /** The names shown in a sequence of list items, row by row. */
  function ShownNames(items: seq<ListItem>): seq<string> {
    if |items| == 0 then []
    else (if items[0].StyleRow? then EntryNames(items[0].styles) else []) + ShownNames(items[1..])
  }

  /** The names from `2m` to `2m + 1`, or just the last name. */
  function Pair(names: seq<string>, m: nat): seq<string>
    requires 2 * m < |names|
  {
    if 2 * m + 2 <= |names| then names[2 * m..2 * m + 2] else names[2 * m..]
  }

  /** A row shows the names of its pair, when the second one, if present, is
      not empty. */
  lemma RowShowsPair(names: seq<string>, styles: map<string, string>, m: nat)
    requires 2 * m < |names| && (2 * m + 1 < |names| ==> names[2 * m + 1] != "")
    ensures EntryNames(RowStyles(names, styles, m)) == Pair(names, m)
  {
    var shown := EntryNames(RowStyles(names, styles, m));
    if 2 * m + 1 < |names| {
      assert shown == [names[2 * m], names[2 * m + 1]];
    } else {
      assert shown == [names[2 * m]];
    }
  }

  /** Rows that show the successive pairs of `names`, from row `m` on, show
      the names from `2m` on. */
  lemma {:induction false} ShownPairs(rows: seq<ListItem>, names: seq<string>, m: nat)
    requires |rows| == RowCount(|names|) && 2 * m <= |names|
    requires forall j :: 0 <= j < |rows| ==> 2 * j < |names| && rows[j].StyleRow? && EntryNames(rows[j].styles) == Pair(names, j)
    ensures m <= |rows| && ShownNames(rows[m..]) == names[2 * m..]
    decreases |names| - 2 * m
  {
    if 2 * m < |names| {
      var rest := rows[m + 1..];
      assert rows[m..] == [rows[m]] + rest;
      assert ShownNames(rows[m..]) == Pair(names, m) + ShownNames(rest);
      if 2 * m + 2 <= |names| {
        ShownPairs(rows, names, m + 1);
        SliceSplit(names, 2 * m, 2 * m + 2);
      } else {
        assert rest == [];
      }
    } else {
      assert rows[m..] == [];
    }
  }

  /** A suffix is its first piece followed by the rest. */
  lemma SliceSplit(names: seq<string>, a: nat, b: nat)
    requires a <= b <= |names|
    ensures names[a..] == names[a..b] + names[b..]
  {
  }

  /** When no name at an odd position is empty, the rows of a category show
      exactly its names, in order; an empty name at an odd position would be
      the one thing dropped. */
  lemma RowsShowNames(i: nat, names: seq<string>, styles: map<string, string>)
    requires forall n :: 0 <= n && 2 * n + 1 < |names| ==> names[2 * n + 1] != ""
    ensures ShownNames(Rows(i, names, styles)) == names
  {
    var rows := Rows(i, names, styles);
    forall j | 0 <= j < |rows|
      ensures 2 * j < |names| && rows[j].StyleRow? && EntryNames(rows[j].styles) == Pair(names, j)
    {
      RowShowsPair(names, styles, j);
    }
    ShownPairs(rows, names, 0);
    assert rows[0..] == rows;
  }

  /** Every entry of every row carries its own name's template. */
  predicate CarryTheirTemplates(items: seq<ListItem>, styles: map<string, string>) {
    forall p, k :: 0 <= p < |items| && items[p].StyleRow? && 0 <= k < |items[p].styles| ==>
      items[p].styles[k].template == TemplateOf(styles, items[p].styles[k].name)
  }

  /** The entries of a category's block carry their templates. */
  lemma BlockCarries(i: nat, category: (string, seq<string>), styles: map<string, string>)
    ensures CarryTheirTemplates(Block(i, category, styles), styles)
  {
    var block := Block(i, category, styles);
    var rows := Rows(i, category.1, styles);
    forall p | 1 <= p < |block| ensures block[p] == RowItem(i, category.1, styles, p - 1) {
      assert block[p] == rows[p - 1];
    }
  }

  /** Two lists whose entries carry their templates make one. */
  lemma CarryAppend(a: seq<ListItem>, b: seq<ListItem>, styles: map<string, string>)
    requires CarryTheirTemplates(a, styles) && CarryTheirTemplates(b, styles)
    ensures CarryTheirTemplates(a + b, styles)
  {
    forall p | |a| <= p < |a + b| ensures (a + b)[p] == b[p - |a|] { }
  }

  /** Every entry of a row carries its own name's template, or `''` when
      the catalog has none. */
  lemma {:induction false} EntriesCarryTheirTemplates(categories: seq<(string, seq<string>)>,
                                                      styles: map<string, string>, i: nat)
    ensures CarryTheirTemplates(ListFrom(categories, styles, i), styles)
    decreases |categories| - i
  {
    if i < |categories| {
      BlockCarries(i, categories[i], styles);
      EntriesCarryTheirTemplates(categories, styles, i + 1);
      CarryAppend(Block(i, categories[i], styles), ListFrom(categories, styles, i + 1), styles);
    }
  }

  // ---------------------------------------------------------------------------
  // Distinct ids
  // ---------------------------------------------------------------------------

  /** The position an id encodes: a category header, or row `row` of
      category `cat`. */
  datatype Key = HeaderKey(cat: nat) | RowKey(cat: nat, row: nat)

  /** The id of the item at a key. */
  function IdOf(k: Key): string {
    match k
    case HeaderKey(c) => CategoryId(c)
    case RowKey(c, m) => RowId(c, m)
  }

  /** Different keys give different ids. */
  lemma IdOfInjective(a: Key, b: Key)
    ensures IdOf(a) == IdOf(b) ==> a == b
  {
    match a {
      case HeaderKey(c) =>
        match b {
          case HeaderKey(d) => HeaderIdInjective(c, d);
          case RowKey(d, n) => KindsDiffer(c, d, n);
        }
      case RowKey(c, m) =>
        match b {
          case HeaderKey(d) => KindsDiffer(d, c, m);
          case RowKey(d, n) => RowIdInjective(c, m, d, n);
        }
    }
  }

  /** A header id and a row id differ in their first letter. */
  lemma KindsDiffer(c: nat, d: nat, n: nat)
    ensures CategoryId(c) != RowId(d, n)
  {
    assert CategoryId(c)[0] == 'c' && RowId(d, n)[0] == 'r';
  }

  /** Headers of different categories have different ids. */
  lemma HeaderIdInjective(c: nat, d: nat)
    ensures CategoryId(c) == CategoryId(d) ==> c == d
  {
    if CategoryId(c) == CategoryId(d) {
      assert NatToString(c) == CategoryId(c)[4..] == NatToString(d);
      NatToStringInjective(c, d);
    }
  }

  /** Different rows have different ids. */
  lemma RowIdInjective(c: nat, m: nat, d: nat, n: nat)
    ensures RowId(c, m) == RowId(d, n) ==> c == d && m == n
  {
    var c', m', d', n' := NatToString(c), NatToString(m), NatToString(d), NatToString(n);
    var x, y := c' + "_" + m', d' + "_" + n';
    assert RowId(c, m) == "row_" + x && RowId(d, n) == "row_" + y;
    if RowId(c, m) == RowId(d, n) {
      assert x == ("row_" + x)[4..] == ("row_" + y)[4..] == y;
      SplitAtMarker(c', m', d', n', '_');
      NatToStringInjective(c, d);
      NatToStringInjective(m, n);
    }
  }

  /** The keys of rows `0` to `n - 1` of category `i`. */
  function RowKeys(i: nat, n: nat): seq<Key>
  {
    seq(n, m requires 0 <= m < n => RowKey(i, m))
  }

  /** The keys of category `i` with `n` names: its header, then its rows. */
  function BlockKeys(i: nat, n: nat): seq<Key>
  {
    [HeaderKey(i)] + RowKeys(i, RowCount(n))
  }

  /** The keys of the categories from index `i` on, in list order. */
  function KeysFrom(categories: seq<(string, seq<string>)>, i: nat): seq<Key>
    decreases |categories| - i
  {
    if i >= |categories| then []
    else
      BlockKeys(i, |categories[i].1|) + KeysFrom(categories, i + 1)
  }

  /** Key order: by category, the header before the rows, rows in order. */
  predicate Before(a: Key, b: Key) {
    a.cat < b.cat || (a.cat == b.cat && a.HeaderKey? && b.RowKey?)
    || (a.cat == b.cat && a.RowKey? && b.RowKey? && a.row < b.row)
  }

  /** The items of a category's block carry the ids of its keys. */
  lemma BlockIds(i: nat, category: (string, seq<string>), styles: map<string, string>)
    ensures |Block(i, category, styles)| == |BlockKeys(i, |category.1|)|
    ensures forall p :: 0 <= p < |Block(i, category, styles)| ==>
      Block(i, category, styles)[p].id == IdOf(BlockKeys(i, |category.1|)[p])
  {
    var names := category.1;
    var block := Block(i, category, styles);
    var rows := Rows(i, names, styles);
    var keys := BlockKeys(i, |names|);
    forall p | 1 <= p < |block| ensures block[p].id == IdOf(keys[p]) {
      assert block[p] == rows[p - 1] == RowItem(i, names, styles, p - 1);
    }
  }

  /** The items carry the ids of their keys. */
  lemma {:induction false} IdsFollowKeys(categories: seq<(string, seq<string>)>, styles: map<string, string>, i: nat)
    ensures |ListFrom(categories, styles, i)| == |KeysFrom(categories, i)|
    ensures forall p :: 0 <= p < |KeysFrom(categories, i)| ==>
      ListFrom(categories, styles, i)[p].id == IdOf(KeysFrom(categories, i)[p])
    decreases |categories| - i
  {
    if i < |categories| {
      BlockIds(i, categories[i], styles);
      IdsFollowKeys(categories, styles, i + 1);
      var block: seq<ListItem> := Block(i, categories[i], styles);
      var rest: seq<ListItem> := ListFrom(categories, styles, i + 1);
      var blockKeys: seq<Key> := BlockKeys(i, |categories[i].1|);
      var restKeys: seq<Key> := KeysFrom(categories, i + 1);
      assert ListFrom(categories, styles, i) == block + rest;
      assert KeysFrom(categories, i) == blockKeys + restKeys;
      forall p | |block| <= p < |block| + |rest| ensures (block + rest)[p].id == IdOf((blockKeys + restKeys)[p]) {
        assert (block + rest)[p] == rest[p - |block|];
      }
    }
  }

  /** The keys strictly increase along the list, and all belong to
      categories from `i` on. */
  lemma {:induction false} KeysIncrease(categories: seq<(string, seq<string>)>, i: nat)
    ensures forall p :: 0 <= p < |KeysFrom(categories, i)| ==> KeysFrom(categories, i)[p].cat >= i
    ensures forall p, q :: 0 <= p < q < |KeysFrom(categories, i)| ==>
      Before(KeysFrom(categories, i)[p], KeysFrom(categories, i)[q])
    decreases |categories| - i
  {
    if i < |categories| {
      KeysIncrease(categories, i + 1);
      var blockKeys := BlockKeys(i, |categories[i].1|);
      var restKeys := KeysFrom(categories, i + 1);
      assert KeysFrom(categories, i) == blockKeys + restKeys;
    }
  }

  /** No two items of the list share an id. */
  lemma ListIdsDistinct(categories: seq<(string, seq<string>)>, styles: map<string, string>)
    ensures forall p, q :: 0 <= p < q < |ListData(categories, styles)| ==>
      ListData(categories, styles)[p].id != ListData(categories, styles)[q].id
  {
    IdsFollowKeys(categories, styles, 0);
    KeysIncrease(categories, 0);
    var keys := KeysFrom(categories, 0);
    forall p, q | 0 <= p < q < |ListData(categories, styles)|
      ensures ListData(categories, styles)[p].id != ListData(categories, styles)[q].id
    {
      assert Before(keys[p], keys[q]);
      assert keys[p] != keys[q];
      IdOfInjective(keys[p], keys[q]);
    }
  }

  // ---------------------------------------------------------------------------
  // The selected item
  // ---------------------------------------------------------------------------

  /** A row of the list shows the style `name`. */
  predicate HasStyle(item: ListItem, name: string) {
    item.StyleRow? && exists k :: 0 <= k < |item.styles| && item.styles[k].name == name
  }

  /** The first row at or after `from` that shows `name`. */
  function FirstRowWith(list: seq<ListItem>, name: string, from: nat): (r: Option<nat>)
    ensures r.Some? ==> from <= r.value < |list| && HasStyle(list[r.value], name)
    ensures r.Some? ==> forall j :: from <= j < r.value ==> !HasStyle(list[j], name)
    ensures r.None? ==> forall j :: from <= j < |list| ==> !HasStyle(list[j], name)
    decreases |list| - from
  {
    if from >= |list| then None
    else if HasStyle(list[from], name) then Some(from)
    else FirstRowWith(list, name, from + 1)
  }

  /** The item `selectedItemIndex` scrolls to for a match at `row`: the
      one before it, or the first item. */
  function ScrollTarget(row: nat): nat {
    if row == 0 then 0 else row - 1
  }

  /** `selectedItemIndex`: -1 when no style is selected or no row shows it;
      otherwise the item before the first row that shows it (the row's
      category header for a category's first row), and 0 for the first item. */
  method SelectedItemIndex(fontStyle: string, list: seq<ListItem>) returns (idx: int)
    ensures -1 <= idx < |list|
    ensures idx == -1 <==> fontStyle == "" || forall j :: 0 <= j < |list| ==> !HasStyle(list[j], fontStyle)
    ensures idx != -1 ==> (FirstRowWith(list, fontStyle, 0).Some?
      && idx == ScrollTarget(FirstRowWith(list, fontStyle, 0).value))
  {
    if fontStyle == "" || |list| == 0 {
      return -1;
    }
    var i := 0;
    while i < |list|
      invariant 0 <= i <= |list|
      invariant forall j :: 0 <= j < i ==> !HasStyle(list[j], fontStyle)
    {
      var item := list[i];
      if item.StyleRow? {
        var k := 0;
        while k < |item.styles|
          invariant 0 <= k <= |item.styles|
          invariant forall n :: 0 <= n < k ==> item.styles[n].name != fontStyle
        {
          if item.styles[k].name == fontStyle {
            FirstRowIs(list, fontStyle, i);
            return if i - 1 > 0 then i - 1 else 0;
          }
          k := k + 1;
        }
      }
      i := i + 1;
    }
    return -1;
  }

  /** A row that shows `name`, with none before it, is the first such row. */
  lemma FirstRowIs(list: seq<ListItem>, name: string, i: nat)
    requires i < |list| && HasStyle(list[i], name)
    requires forall j :: 0 <= j < i ==> !HasStyle(list[j], name)
    ensures FirstRowWith(list, name, 0) == Some(i)
  {
  }

  /** Some row of `list` shows the style `name`. */
  predicate Shows(list: seq<ListItem>, name: string) {
    exists p :: 0 <= p < |list| && HasStyle(list[p], name)
  }

  /** A style shown in one part of a list is shown in the whole. */
  lemma ShowsInAppend(a: seq<ListItem>, b: seq<ListItem>, name: string)
    ensures Shows(a, name) || Shows(b, name) ==> Shows(a + b, name)
  {
    if Shows(a, name) {
      var p :| 0 <= p < |a| && HasStyle(a[p], name);
      assert (a + b)[p] == a[p];
    } else if Shows(b, name) {
      var p :| 0 <= p < |b| && HasStyle(b[p], name);
      assert (a + b)[|a| + p] == b[p];
    }
  }

  /** A style shown by a category's block, or by the blocks after it, is
      shown by the list from that category on. */
  lemma ListShows(categories: seq<(string, seq<string>)>, styles: map<string, string>, i: nat, name: string)
    requires i < |categories|
    ensures Shows(Block(i, categories[i], styles), name) || Shows(ListFrom(categories, styles, i + 1), name)
        ==> Shows(ListFrom(categories, styles, i), name)
  {
    var block := Block(i, categories[i], styles);
    var rest := ListFrom(categories, styles, i + 1);
    assert ListFrom(categories, styles, i) == block + rest;
    ShowsInAppend(block, rest, name);
  }

  /** A row shows the name it starts at, and the next one when that is
      present and not empty. */
  lemma RowHasName(i: nat, names: seq<string>, styles: map<string, string>, m: nat, b: nat)
    requires b < 2 && 2 * m + b < |names| && (b == 1 ==> names[2 * m + 1] != "")
    ensures HasStyle(RowItem(i, names, styles, m), names[2 * m + b])
  {
    var row := RowStyles(names, styles, m);
    assert row[b].name == names[2 * m + b];
  }

  /** Name `2m + b` of a category is shown by row `m` of its block, right
      after the header. */
  lemma BlockShows(i: nat, category: (string, seq<string>), styles: map<string, string>, m: nat, b: nat)
    requires b < 2 && 2 * m + b < |category.1| && (b == 1 ==> category.1[2 * m + 1] != "")
    ensures Shows(Block(i, category, styles), category.1[2 * m + b])
  {
    var names := category.1;
    var block := Block(i, category, styles);
    var rows := Rows(i, names, styles);
    RowHasName(i, names, styles, m, b);
    assert block[1 + m] == rows[m] == RowItem(i, names, styles, m);
  }

  /** Name `k` of a category is shown in its block unless it is an empty
      name at an odd position. */
  lemma NameShown(i: nat, category: (string, seq<string>), styles: map<string, string>, k: nat)
    requires k < |category.1| && (k % 2 == 1 ==> category.1[k] != "")
    ensures Shows(Block(i, category, styles), category.1[k])
  {
    var m, b := k / 2, k % 2;
    assert k == 2 * m + b && b < 2;
    BlockShows(i, category, styles, m, b);
  }

  /** Every name listed at an even position of a category, and every
      non-empty one at an odd position, appears in a row of the list. */
  lemma {:induction false} ListedStyleShown(categories: seq<(string, seq<string>)>, styles: map<string, string>,
                                            i: nat, c: nat, k: nat)
    requires i <= c < |categories| && k < |categories[c].1|
    requires k % 2 == 1 ==> categories[c].1[k] != ""
    ensures Shows(ListFrom(categories, styles, i), categories[c].1[k])
    decreases c - i
  {
    if i == c {
      NameShown(i, categories[i], styles, k);
    } else {
      ListedStyleShown(categories, styles, i + 1, c, k);
    }
    ListShows(categories, styles, i, categories[c].1[k]);
  }

  /** Looking up a listed style finds a row for it. The name may still be
      empty (at an even position), which `selectedItemIndex` treats as no
      selection; `SelectListedStyle` covers that case. */
  lemma ListedStyleSelectable(categories: seq<(string, seq<string>)>, styles: map<string, string>, c: nat, k: nat)
    requires c < |categories| && k < |categories[c].1|
    requires k % 2 == 1 ==> categories[c].1[k] != ""
    ensures FirstRowWith(ListData(categories, styles), categories[c].1[k], 0).Some?
  {
    ListedStyleShown(categories, styles, 0, c, k);
  }

  /** `selectedItemIndex` for a style picked from `listData`: -1 exactly
      when the picked name is empty, and otherwise the item before the
      first row that shows it (0 when that row is the list's first item). */
  method SelectListedStyle(categories: seq<(string, seq<string>)>, styles: map<string, string>, c: nat, k: nat)
    returns (idx: int)
    requires c < |categories| && k < |categories[c].1|
    requires k % 2 == 1 ==> categories[c].1[k] != ""
    ensures -1 <= idx < |ListData(categories, styles)|
    ensures idx == -1 <==> categories[c].1[k] == ""
    ensures idx != -1 ==> (FirstRowWith(ListData(categories, styles), categories[c].1[k], 0).Some?
      && idx == ScrollTarget(FirstRowWith(ListData(categories, styles), categories[c].1[k], 0).value))
  {
    ListedStyleSelectable(categories, styles, c, k);
    idx := SelectedItemIndex(categories[c].1[k], ListData(categories, styles));
  }
}

=== FILE: styler.dfy ===
/** `getStyledText`: the generated text decorated with the selected font
    style. The template's placeholder is replaced once by the whole text when
    no separator is set; otherwise the text is cut at the separator and every
    non-blank piece is decorated on its own. */
module Styler {
  import opened Strings
  import opened Settings
  import opened Catalog
  import opened Generator

  /** The content put in place of the placeholder, taken literally: the
      substitution every template-filling step of the model uses. */
  function Put(template: string, text: string): (r: string)
    ensures !Contains(template, Token) ==> r == template
  {
    ReplaceFirst(template, Token, text)
  }

  /** `template.replace('$TEXT$', text)` as JavaScript evaluates it, where
      the `$` patterns of `text` are expanded. */
  function PutAsWritten(template: string, text: string): (r: string)
    ensures '$' !in text ==> r == Put(template, text)
  {
    JsReplaceFirst(template, Token, text)
  }

  /** Filling a catalog template puts the content between its prefix and its
      suffix, verbatim. */
  lemma PutInTemplate(t: Template, text: string)
    ensures Put(t.Text(), text) == t.pre + text + t.suf
  {
    assert Token[0] == '$';
    ReplaceFirstWrapped(t.pre, Token, t.suf, text);
  }

  /** Every piece between the template's prefix and suffix. */
  function Decorated(t: Template, parts: seq<string>): (r: seq<string>)
  {
    seq(|parts|, i requires 0 <= i < |parts| => t.pre + parts[i] + t.suf)
  }

  // ---------------------------------------------------------------------------
  // The clock refresh of the Time and Date styles
  // ---------------------------------------------------------------------------

  /** The start the four clock expressions share. */
  const NewDate: string := "new Date()"

  /** The four clock expressions rewritten by the Time and Date styles. */
  const TimeCall: string := NewDate + ".toLocaleTimeString()"
  const DateCall: string := NewDate + ".toLocaleDateString()"
  const Time12Call: string := NewDate + ".toLocaleTimeString('en-US', {hour12: true})"
  const TimeHmsCall: string := NewDate + ".toLocaleTimeString('en-US', {hour: '2-digit', minute: '2-digit', second: '2-digit'})"

  /** A string between double quotes. */
  function Quoted(s: string): string {
    "\"" + s + "\""
  }

  /** The four global rewrites: each clock expression written in a template
      becomes the quoted current reading. */
  function RefreshClock(template: string, now: ClockReading): (r: string)
    ensures !Contains(template, NewDate) ==> r == template
  {
    ContainsPrefix(template, NewDate, ".toLocaleTimeString()");
    ContainsPrefix(template, NewDate, ".toLocaleDateString()");
    ContainsPrefix(template, NewDate, ".toLocaleTimeString('en-US', {hour12: true})");
    ContainsPrefix(template, NewDate, ".toLocaleTimeString('en-US', {hour: '2-digit', minute: '2-digit', second: '2-digit'})");
    var a := ReplaceAll(template, TimeCall, Quoted(now.time));
    var b := ReplaceAll(a, DateCall, Quoted(now.date));
    var c := ReplaceAll(b, Time12Call, Quoted(now.time12));
    ReplaceAll(c, TimeHmsCall, Quoted(now.timeHms))
  }

  /** The style names whose templates get the clock refresh. */
  predicate IsClockStyle(style: string) {
    Contains(style, "Time") || Contains(style, "Date")
  }

  // ---------------------------------------------------------------------------
  // getStyledText
  // ---------------------------------------------------------------------------

  /** `availableFontStyles[fontStyle] || ''`. */
  function TemplateOf(styles: map<string, string>, style: string): string {
    if style in styles then styles[style] else ""
  }

  /** One piece of the cut text: blank pieces are kept as they are, others
      are decorated. */
  function StylePart(template: string, part: string, literal: bool): string {
    if Trim(part) == "" then part
    else if literal then Put(template, part)
    else PutAsWritten(template, part)
  }

  /** Every piece of the cut text styled on its own. */
  function StyleParts(template: string, parts: seq<string>, literal: bool): (r: seq<string>)
  {
    seq(|parts|, i requires 0 <= i < |parts| => StylePart(template, parts[i], literal))
  }

  /** The styling of `text` with either substitution: `literal` picks
      `Put`, otherwise `PutAsWritten`. `now` is the clock at styling time. */
  function Style(text: string, style: string, styles: map<string, string>, o: Options,
                 now: ClockReading, literal: bool): (r: string)
    ensures text == "" || style == "Normal" || TemplateOf(styles, style) == "" ==> r == text
  {
    var template := TemplateOf(styles, style);
    if text == "" || style == "Normal" || template == "" then text
    else
      var t := if IsClockStyle(style) then RefreshClock(template, now) else template;
      var sep := Separator(o);
      if sep == "" then
        (if literal then Put(t, text) else PutAsWritten(t, text))
      else
        var parts := Split(text, sep);
        Join(StyleParts(t, parts, literal), sep)
  }

  /** `getStyledText()` with the literal substitution. */
  function GetStyledText(text: string, style: string, styles: map<string, string>, o: Options,
                         now: ClockReading): (r: string)
    ensures text == "" || style == "Normal" || style !in styles || styles[style] == "" ==> r == text
  {
    Style(text, style, styles, o, now, true)
  }

  /** `getStyledText()` as written, with the `$` patterns of the text
      expanded. */
  function GetStyledTextAsWritten(text: string, style: string, styles: map<string, string>,
                                  o: Options, now: ClockReading): string
  {
    Style(text, style, styles, o, now, false)
  }

  /** The two substitutions agree on every text without a dollar sign. */
  lemma AsWrittenAgreesWithoutDollar(text: string, style: string, styles: map<string, string>,
                                     o: Options, now: ClockReading)
    requires '$' !in text
    ensures GetStyledTextAsWritten(text, style, styles, o, now) == GetStyledText(text, style, styles, o, now)
  {
    var template := TemplateOf(styles, style);
    var t := if IsClockStyle(style) then RefreshClock(template, now) else template;
    var sep := Separator(o);
    if sep != "" {
      SplitPartsIn(text, sep);
      var parts := Split(text, sep);
      var asWritten := StyleParts(t, parts, false);
      var literal := StyleParts(t, parts, true);
      forall i | 0 <= i < |parts| ensures asWritten[i] == literal[i] {
        assert '$' !in parts[i];
      }
      assert asWritten == literal;
    }
  }

  /** Every piece of a split is a substring of the whole, so it holds only
      characters of the whole. */
  lemma SplitPartsIn(s: string, sep: string)
    requires |sep| > 0
    ensures forall i, c :: 0 <= i < |Split(s, sep)| && c in Split(s, sep)[i] ==> c in s
  {
    JoinSplit(s, sep);
    forall i, c | 0 <= i < |Split(s, sep)| && c in Split(s, sep)[i] ensures c in s {
      PartInJoin(Split(s, sep), sep, i, c);
    }
  }

  /** A character of one piece is a character of the join. */
  lemma {:induction false} PartInJoin(parts: seq<string>, sep: string, i: nat, c: char)
    requires i < |parts| && c in parts[i]
    ensures c in Join(parts, sep)
    decreases |parts|
  {
    if |parts| > 1 {
      var head, rest := parts[0] + sep, Join(parts[1..], sep);
      assert Join(parts, sep) == head + rest;
      if i == 0 {
        assert c in head;
      } else {
        PartInJoin(parts[1..], sep, i - 1, c);
      }
    }
  }

  // ---------------------------------------------------------------------------
  // Properties
  // ---------------------------------------------------------------------------

  /** The clock expressions are longer than the placeholder, so the bare
      placeholder holds none. */
  lemma TokenHasNoClock()
    ensures !Contains(Token, NewDate)
  {
  }

  /** A string that contains `t` holds every character of `t`. */
  lemma ContainsHasChar(s: string, t: string, k: nat)
    requires Contains(s, t) && k < |t|
    ensures t[k] in s
  {
    var j := FirstIndex(s, t).value;
    assert s[j..j + |t|][k] == s[j + k];
  }

  /** No template holds a clock expression: its decoration has no `w`,
      and neither has the placeholder. */
  lemma TemplateHasNoClock(t: Template)
    ensures !Contains(t.Text(), NewDate)
  {
    assert 'w' !in t.Text();
    if Contains(t.Text(), NewDate) {
      ContainsHasChar(t.Text(), NewDate, 2);
    }
  }

  /** No template of the catalog holds a clock expression, so the clock
      refresh leaves every one of them unchanged. */
  lemma CatalogHasNoClock(clock: LoadClock, now: ClockReading)
    ensures forall n :: n in FontStyles(clock) ==> !Contains(FontStyles(clock)[n], NewDate)
    ensures forall n :: n in FontStyles(clock) ==> RefreshClock(FontStyles(clock)[n], now) == FontStyles(clock)[n]
  {
    forall n | n in FontStyles(clock) ensures !Contains(FontStyles(clock)[n], NewDate) {
      TemplateHasNoClock(Templates(clock)[n]);
    }
  }

  /** A non-blank piece is decorated with the catalog template; a blank one
      is kept. */
  lemma StylePartInTemplate(t: Template, part: string)
    ensures StylePart(t.Text(), part, true) == (if IsBlank(part) then part else t.pre + part + t.suf)
  {
    TrimEmptyIffBlank(part);
    PutInTemplate(t, part);
  }

  /** The template that is the bare placeholder leaves every text as it
      is. */
  lemma PlaceholderStyleIsIdentity(text: string, style: string, styles: map<string, string>,
                                   o: Options, now: ClockReading)
    requires style in styles && styles[style] == Token
    ensures GetStyledText(text, style, styles, o, now) == text
  {
    var bare := Template("", "");
    assert bare.Text() == Token;
    TokenHasNoClock();
    PutInTemplate(bare, text);
    var sep := Separator(o);
    if text != "" && style != "Normal" && sep != "" {
      PlaceholderKeepsParts(Split(text, sep));
      JoinSplit(text, sep);
    }
  }

  /** The bare placeholder leaves every piece as it is. */
  lemma PlaceholderKeepsParts(parts: seq<string>)
    ensures StyleParts(Token, parts, true) == parts
  {
    var bare := Template("", "");
    assert bare.Text() == Token;
    var styled := StyleParts(Token, parts, true);
    forall i | 0 <= i < |parts| ensures styled[i] == parts[i] {
      StylePartInTemplate(bare, parts[i]);
    }
  }

  /** Without a separator the whole text goes into the template once. */
  lemma WholeTextStyled(text: string, style: string, styles: map<string, string>, o: Options,
                        now: ClockReading, t: Template)
    requires text != "" && style != "Normal" && style in styles && styles[style] == t.Text()
    requires Separator(o) == ""
    ensures GetStyledText(text, style, styles, o, now) == t.pre + text + t.suf
  {
    TemplateHasNoClock(t);
    PutInTemplate(t, text);
  }

  /** An occurrence of a non-blank text is not blank. */
  lemma OccurrenceNotBlank(p: string, o: Options, total: nat, i: nat)
    requires 1 <= i <= total && !IsBlank(p)
    ensures !IsBlank(Occurrence(p, o, total, i))
  {
    if o.addNumbers {
      BlankConcat(NatToString(i) + ". ", p);
    } else if o.addPercentages {
      BlankConcat(NatToString(Percent(i, total)) + "% ", p);
    }
  }

  /** Styling the generated text decorates every occurrence separately:
      the output is the occurrences, each between the template's prefix and
      suffix, joined by the separator. */
  lemma StylesEachOccurrence(base: string, repetitions: int, o: Options, style: string,
                             styles: map<string, string>, now: ClockReading, t: Template)
    requires !IsBlank(base) && repetitions > 0 && Separator(o) != ""
    requires Separator(o)[0] !in base
    requires Separator(o) == " " ==> !o.addNumbers && !o.addPercentages
    requires style != "Normal" && style in styles && styles[style] == t.Text()
    ensures GetStyledText(Expected(base, repetitions, o), style, styles, o, now)
         == Join(Decorated(t, Occurrences(ProcessText(base, o.addPeriod), o, repetitions, 0, repetitions)),
                 Separator(o))
  {
    var text := Expected(base, repetitions, o);
    GeneratedEmptyIff(base, repetitions, o);
    SplitRecoversOccurrences(base, repetitions, o);
    OccurrencesNotBlank(base, repetitions, o);
    StylesEachPart(text, style, styles, o, now, t,
                   Occurrences(ProcessText(base, o.addPeriod), o, repetitions, 0, repetitions));
  }

  /** No occurrence of a non-blank text is blank. */
  lemma OccurrencesNotBlank(base: string, total: nat, o: Options)
    requires !IsBlank(base)
    ensures forall k :: 1 <= k <= total ==> !IsBlank(Occurrence(ProcessText(base, o.addPeriod), o, total, k))
  {
    var p := ProcessText(base, o.addPeriod);
    assert !IsBlank(p) by {
      BlankConcat(base, ".");
    }
    forall k | 1 <= k <= total ensures !IsBlank(Occurrence(p, o, total, k)) {
      OccurrenceNotBlank(p, o, total, k);
    }
  }

  /** A text whose pieces are none of them blank is styled piece by piece,
      each piece between the template's prefix and suffix. */
  lemma StylesEachPart(text: string, style: string, styles: map<string, string>, o: Options,
                       now: ClockReading, t: Template, pieces: seq<string>)
    requires text != "" && style != "Normal" && style in styles && styles[style] == t.Text()
    requires Separator(o) != "" && Split(text, Separator(o)) == pieces
    requires forall i :: 0 <= i < |pieces| ==> !IsBlank(pieces[i])
    ensures GetStyledText(text, style, styles, o, now) == Join(Decorated(t, pieces), Separator(o))
  {
    TemplateHasNoClock(t);
    var styled := StyleParts(t.Text(), pieces, true);
    var wrapped := Decorated(t, pieces);
    forall i | 0 <= i < |pieces| ensures styled[i] == wrapped[i] {
      StylePartInTemplate(t, pieces[i]);
    }
    assert styled == wrapped;
  }

  /** Styling round trip: when no piece and neither half of the decoration
      holds the separator's first character, splitting the styled text on
      the separator gives back every piece between the template's prefix
      and suffix, so stripping the decoration restores the pieces. */
  lemma StyledSplitsBack(text: string, style: string, styles: map<string, string>, o: Options,
                         now: ClockReading, t: Template)
    requires text != "" && style != "Normal" && style in styles && styles[style] == t.Text()
    requires Separator(o) != "" && Separator(o)[0] !in t.pre && Separator(o)[0] !in t.suf
    requires forall i :: 0 <= i < |Split(text, Separator(o))| ==>
      !IsBlank(Split(text, Separator(o))[i]) && Separator(o)[0] !in Split(text, Separator(o))[i]
    ensures |Split(GetStyledText(text, style, styles, o, now), Separator(o))| == |Split(text, Separator(o))|
    ensures forall i :: 0 <= i < |Split(text, Separator(o))| ==>
      Split(GetStyledText(text, style, styles, o, now), Separator(o))[i] == t.pre + Split(text, Separator(o))[i] + t.suf
  {
    var sep := Separator(o);
    var pieces := Split(text, sep);
    var d := Decorated(t, pieces);
    StylesEachPart(text, style, styles, o, now, t, pieces);
    SeparatorUnbordered(o);
    forall k | 0 <= k < |d| ensures Delimits(d[k], sep) {
      assert d[k] == t.pre + pieces[k] + t.suf;
      assert sep[0] !in d[k];
      ContainsFirst(d[k], sep);
      DelimitsWhenFree(d[k], sep);
    }
    SplitJoin(d, sep);
  }

  /** The round trip on the generator's output: splitting the styled
      repetitions on the separator gives occurrence `k + 1` between the
      template's prefix and suffix, for each of the `repetitions` pieces. */
  lemma StyledOccurrencesSplitBack(base: string, repetitions: int, o: Options, style: string,
                                   styles: map<string, string>, now: ClockReading, t: Template)
    requires !IsBlank(base) && repetitions > 0 && Separator(o) != ""
    requires Separator(o)[0] !in base && Separator(o)[0] !in t.pre && Separator(o)[0] !in t.suf
    requires Separator(o) == " " ==> !o.addNumbers && !o.addPercentages
    requires style != "Normal" && style in styles && styles[style] == t.Text()
    ensures |Split(GetStyledText(Expected(base, repetitions, o), style, styles, o, now), Separator(o))| == repetitions
    ensures forall k :: 0 <= k < repetitions ==>
      Split(GetStyledText(Expected(base, repetitions, o), style, styles, o, now), Separator(o))[k]
        == t.pre + Occurrence(ProcessText(base, o.addPeriod), o, repetitions, k + 1) + t.suf
  {
    var text := Expected(base, repetitions, o);
    var p := ProcessText(base, o.addPeriod);
    var sep := Separator(o);
    GeneratedEmptyIff(base, repetitions, o);
    SplitRecoversOccurrences(base, repetitions, o);
    OccurrencesNotBlank(base, repetitions, o);
    var occ := Occurrences(p, o, repetitions, 0, repetitions);
    assert sep[0] !in p by {
      assert forall c :: c in p ==> c in base || c == '.';
    }
    forall k | 0 <= k < |occ| ensures !IsBlank(occ[k]) && sep[0] !in occ[k] {
      OccurrenceChars(p, o, repetitions, k + 1, sep[0]);
    }
    assert Split(text, sep) == occ;
    StyledSplitsBack(text, style, styles, o, now, t);
  }

  /** The round trip fails once the decoration holds the separator: the
      split then cuts the first piece's prefix apart. Hearts (`"♥♥♥ "`) with
      the space separator is such a case. */
  lemma DecorationHoldingSepBreaksSplit(text: string, style: string, styles: map<string, string>, o: Options,
                                        now: ClockReading, t: Template)
    requires text != "" && style != "Normal" && style in styles && styles[style] == t.Text()
    requires Separator(o) != "" && Contains(t.pre, Separator(o))
    requires forall i :: 0 <= i < |Split(text, Separator(o))| ==> !IsBlank(Split(text, Separator(o))[i])
    ensures Split(GetStyledText(text, style, styles, o, now), Separator(o)) != Decorated(t, Split(text, Separator(o)))
  {
    var sep := Separator(o);
    var pieces := Split(text, sep);
    var d := Decorated(t, pieces);
    StylesEachPart(text, style, styles, o, now, t, pieces);
    assert d[0] == t.pre + (pieces[0] + t.suf);
    ContainsInPrefix(t.pre, pieces[0] + t.suf, sep);
    assert Contains(d[0], sep);
  }

  /** Without a separator the as-written styling is one `replace` call on
      the whole text. */
  lemma WholeTextAsWritten(text: string, style: string, styles: map<string, string>, o: Options,
                           now: ClockReading)
    requires text != "" && style != "Normal" && style in styles && styles[style] != ""
    requires !IsClockStyle(style) && Separator(o) == ""
    ensures GetStyledTextAsWritten(text, style, styles, o, now) == PutAsWritten(styles[style], text)
    ensures GetStyledText(text, style, styles, o, now) == Put(styles[style], text)
  {
  }

  /** `$&` in place of the placeholder brings the placeholder itself back. */
  lemma AmpersandPattern(t: Template)
    ensures PutAsWritten(t.Text(), "$&") == t.Text()
    ensures Put(t.Text(), "$&") == t.pre + "$&" + t.suf
  {
    PutInTemplate(t, "$&");
    assert Token[0] == '$';
    FirstIndexAfter(t.pre, Token, t.suf);
    var s := t.Text();
    assert s[..|t.pre|] == t.pre;
    assert s[|t.pre| + |Token|..] == t.suf;
    var amp := "$&";
    assert amp[0] == '$' && amp[1] == '&' && amp[2..] == "";
    var e := ExpandReplacement(amp, Token, t.pre, t.suf);
    assert e == Token + ExpandReplacement("", Token, t.pre, t.suf) == Token;
    assert JsReplaceFirst(s, Token, amp) == s[..|t.pre|] + e + s[|t.pre| + |Token|..];
  }

  /** A dollar pattern in the text changes what the as-written substitution
      produces: styling the text `$&` without a separator shows the bare
      template, placeholder included, where the text itself was meant to
      appear. */
  lemma DollarPatternExpanded(t: Template, style: string, styles: map<string, string>, o: Options,
                              now: ClockReading)
    requires style != "Normal" && style in styles && styles[style] == t.Text()
    requires !IsClockStyle(style) && Separator(o) == ""
    ensures GetStyledTextAsWritten("$&", style, styles, o, now) == t.Text()
    ensures GetStyledText("$&", style, styles, o, now) == t.pre + "$&" + t.suf
    ensures t.Text() != t.pre + "$&" + t.suf
  {
    WholeTextAsWritten("$&", style, styles, o, now);
    AmpersandPattern(t);
    assert |t.Text()| != |t.pre + "$&" + t.suf|;
  }
}
